=== FILE: README.md ===
# Group exclusion: a verified model of the removal bookkeeping

`exclusion-data-ranking/group-exclusion.py` trains a classifier once per
balanced group of held-out training images (lines 206-253). For each group it
records the names of the removed images and the best test accuracy reached
without them. The script reads an image folder as a list
of samples `(path, label)`, with labels `0 .. N-1` for the `N` classes. It keeps
one cursor per class, at the first sample of that class. Then it runs
`total // (class_size * N)` rounds. Each round:

- reloads the full training list;
- removes, class by class, the `class_size` samples starting at that class's
  cursor (by value, with `list.remove`);
- records their image names and advances the cursor past them;
- trains a fresh network on what is left;
- appends the removed names, followed by the best test accuracy of the
  training run, as one row of the results grid.

This project models that bookkeeping in Dafny:

- `wrappers.dfy`: `Option` and `Result`. A Python exception is a `Result`
  error carrying `IndexError`, `ValueError`, `ZeroDivisionError` or
  `AttributeError`.
- `pylists.dfy` (`PyLists`): the Python list operations the script relies
  on, and the image-name extraction of line 194.
  - `list.remove` removes the first equal element, or raises `ValueError`.
  - `Keep` is "the list without these positions, in order".
- `samples.dfy` (`Samples`): the folder's sample list, its labels, and its
  image names.
- `cursors.dfy` (`Cursors`): the cursor initialisation of lines 199-204, and
  what contiguous labels give.
- `rounds.dfy` (`Rounds`): the round count of line 206 and one round, lines
  213-223.
  - The run of one class (`RemoveRun`) and the loop over classes
    (`RemoveClasses`) follow the loops literally: a missing cursor or a cursor
    past the end raises `IndexError`, and a sample already gone raises
    `ValueError`.
  - They are then characterised by the group of samples the round takes.
- `bestscore.dfy` (`BestScore`): the best-score tracking of the training
  function (lines 72-73 and 158-160).
- `grid.dfy` (`Grid`): one results row, names followed by the score (lines
  216-222 and 251-253).
- `experiment.dfy` (`Experiment`): the whole experiment as a method, and the
  facts that tie the rounds together.

The training is a parameter of the experiment: given the round number and the
training list, it yields the test score of every epoch. A score is the number of
correct test predictions. The script divides it by the fixed test-set size,
which keeps the order, so comparing counts is comparing accuracies.

The following conditions make every round take its own class's block:

- a positive group size;
- distinct samples (the folder's paths are unique);
- every class present;
- the samples of each class adjacent (an image folder lists class by class);
- at least `rounds * class_size` samples in every class.

Without them a round may raise IndexError or ValueError, or may silently remove
samples of another class; `Rounds.RemoveGroupSpec` says what a round does for
any cursors.

Under these conditions, `Experiment.Run` behaves as follows:

- **Groups take every sample.** The one round has nothing left to train on,
  and the DataLoader of line 227 raises ValueError.
- **Otherwise, success.** The experiment succeeds exactly when every round
  keeps an epoch. Keeping an epoch means some epoch's test score beats the
  starting best, the float `0.0` of line 73. The result is one row per round.
  Row `g` holds the image names of the samples at offsets
  `g*class_size .. (g+1)*class_size - 1` from each class's first sample, in
  class order. They are followed by the best score of training on the full
  list without exactly those samples.
- **Otherwise, failure.** A round that keeps no epoch hands line 251 that
  plain float. Line 251 calls `.item()` on it, which raises AttributeError.

## Model

| member | source | states |
|---|---|---|
| PyLists.Find | exclusion-data-ranking/group-exclusion.py:220 | a position that is found holds the value; `FindNone` and `FindFirst` add that nothing is found exactly when the value is absent, and that the position found is the first |
| PyLists.FindFrom | exclusion-data-ranking/group-exclusion.py:201-204 | the scan from a position finds nothing exactly when the value does not occur from there on; otherwise it reports a position at or after the start that holds the value |
| PyLists.FindFromFirst | exclusion-data-ranking/group-exclusion.py:201-204 | the scan stops at the first matching position: no earlier position from the start holds the value |
| PyLists.FindFirst | exclusion-data-ranking/group-exclusion.py:220 | the position `list.remove` acts on is the first occurrence of the value |
| PyLists.FindAt | exclusion-data-ranking/group-exclusion.py:220 | a position that holds the value, with no occurrence before it, is the one found |
| PyLists.RemoveOk | exclusion-data-ranking/group-exclusion.py:220 | `list.remove` succeeds if and only if the value occurs in the list |
| PyLists.Remove | exclusion-data-ranking/group-exclusion.py:220 | a failed removal raises ValueError; a successful one shortens the list by one |
| PyLists.RemoveMultiset | exclusion-data-ranking/group-exclusion.py:220 | a successful removal takes away exactly one copy of the value and nothing else |
| PyLists.RemoveEach | exclusion-data-ranking/group-exclusion.py:219-220 | repeated removals raise only ValueError; when they succeed, the list shrinks by the number of values removed |
| PyLists.RemoveEachMultiset | exclusion-data-ranking/group-exclusion.py:219-220 | successful repeated removals take away exactly the removed values, with multiplicity |
| PyLists.RemoveEachFails | exclusion-data-ranking/group-exclusion.py:219-220 | once a removal raises, the script never gets past it: removing more values after it still fails |
| PyLists.RemoveKept | exclusion-data-ranking/group-exclusion.py:220 | in a list of distinct samples, removing the sample at position `c` from the list without some positions yields the list without those positions and `c`, order kept |
| PyLists.RemoveEachKept | exclusion-data-ranking/group-exclusion.py:219-220 | removing a stretch of distinct samples by value leaves the list without that stretch's positions, order kept |
| PyLists.Basename | exclusion-data-ranking/group-exclusion.py:194 | `rsplit('/', 1)[-1]`: the image name holds no '/' and is no longer than the path; `BasenameSpec` and `BasenameUnique` pin it down as the text after the last '/', or the whole path |
| PyLists.BasenameSpec | exclusion-data-ranking/group-exclusion.py:194 | the image name has no '/', is a suffix of the path, and is the whole path or preceded by a '/' |
| PyLists.BasenameUnique | exclusion-data-ranking/group-exclusion.py:194 | any suffix with those three properties is the image name, so they determine it |
| PyLists.BasenameOfJoin | exclusion-data-ranking/group-exclusion.py:194 | a path `dir/name` with a slash-free `name` has image name `name` |
| PyLists.BasenameOfName | exclusion-data-ranking/group-exclusion.py:194 | a slash-free path is its own image name, so taking the image name twice changes nothing |
| Samples.Labels | exclusion-data-ranking/group-exclusion.py:190-193 | the label list has one entry per sample, the label of that sample |
| Samples.ImageList | exclusion-data-ranking/group-exclusion.py:190-194 | there is one image name per sample; `ImageListAt` gives the content |
| Samples.ImageListAt | exclusion-data-ranking/group-exclusion.py:190-194 | entry `i` of the image list is the image name of sample `i`'s path and holds no '/' |
| Samples.ImageListOfJoined | exclusion-data-ranking/group-exclusion.py:194 | a sample stored as `dir/name` is listed under `name` |
| Samples.ImageListSlice | exclusion-data-ranking/group-exclusion.py:222 | the names of a stretch of samples are that stretch of the image list |
| Cursors.FirstOccurrences | exclusion-data-ranking/group-exclusion.py:199-204 | at most one cursor per class; `FirstOccurrencesSpec` gives the content |
| Cursors.FirstOccurrencesSpec | exclusion-data-ranking/group-exclusion.py:199-204 | there is one cursor per class if and only if every class occurs; then cursor `r` is the first position labelled `r` |
| Cursors.InitCursors | exclusion-data-ranking/group-exclusion.py:199-204 | the nested scan yields the first-occurrence cursors: one per class exactly when every class occurs, each at its class's first sample |
| Cursors.ClassRun | exclusion-data-ranking/group-exclusion.py:218-223 | with adjacent classes, the `len` positions from a class's first sample all hold that class when it has at least `len` samples |
| Rounds.RoundCount | exclusion-data-ranking/group-exclusion.py:206 | the count raises ZeroDivisionError exactly when `class_size * N` is 0; otherwise it is the largest number of whole groups that fit in the list |
| Rounds.RemoveRun | exclusion-data-ranking/group-exclusion.py:219-223 | a run whose stretch passes the end of the list raises an exception; a run raises only IndexError or ValueError, and a successful one records one name per removal and leaves the cursor just past its stretch |
| Rounds.RemoveClasses | exclusion-data-ranking/group-exclusion.py:218-223 | the class loop raises only IndexError or ValueError and keeps one cursor slot per class; `RemoveClassesSpec` gives the content |
| Rounds.RemoveRunSpec | exclusion-data-ranking/group-exclusion.py:219-223 | a run whose stretch lies in the list removes the stretch's samples by value in order, failing with the first ValueError; on success it records the stretch's image names and leaves the cursor just past it |
| Rounds.RemoveClassesInRange | exclusion-data-ranking/group-exclusion.py:218-223 | a round that succeeds had a cursor for every class, with every class's stretch inside the list |
| Rounds.RemoveClassesSpec | exclusion-data-ranking/group-exclusion.py:218-223 | with stretches in range, the class loop removes the group's samples by value in group order; its row is the group read off the image list, and each cursor moves on by `class_size` |
| Rounds.GroupAt | exclusion-data-ranking/group-exclusion.py:218-222 | entry `m*class_size + o` of a round's group is sample `o` of class `m`'s block, which has label `m`: the row is in class order |
| Rounds.GroupNames | exclusion-data-ranking/group-exclusion.py:222 | reading a group off the image list gives the image names of the group's samples |
| Rounds.RemoveGroup | exclusion-data-ranking/group-exclusion.py:213-223 | a round raises only IndexError or ValueError and keeps one cursor slot per class; `RemoveGroupSpec` and `RemoveGroupReady` give the content |
| Rounds.RemoveGroupSpec | exclusion-data-ranking/group-exclusion.py:213-223 | a round fails unless every class's stretch is in range; then it removes the group from the full list, records the group's names and moves every cursor on by `class_size` |
| Rounds.GroupRemovesBlocks | exclusion-data-ranking/group-exclusion.py:218-220 | over distinct samples, removing the later classes' blocks by value from the list without the earlier blocks leaves the list without every block, order kept |
| Rounds.RemoveGroupReady | exclusion-data-ranking/group-exclusion.py:213-223 | over distinct samples, with every class owning its block, a round succeeds: its training list is the full list without the round's positions in original order, its row the group's names, and every cursor advances by `class_size` |
| Rounds.RoundSetBlocks | exclusion-data-ranking/group-exclusion.py:218-223 | when every class owns its block, a position is in the round's set if and only if it lies inside some class's block (over distinct samples `RemoveGroupReady` makes that set the removed positions) |
| Rounds.RoundTrainingSize | exclusion-data-ranking/group-exclusion.py:213-220 | a round's training list is `class_size * N` samples shorter than the full list, and together with the group it holds exactly the full list's samples |
| BestScore.Step | exclusion-data-ranking/group-exclusion.py:158-160 | an epoch replaces the best if and only if its score is strictly greater, and then becomes the kept epoch with its score; the best never drops and is at least the epoch's score |
| BestScore.Track | exclusion-data-ranking/group-exclusion.py:158-160 | the kept epoch, when there is one, is one of the epochs run; `TrackSpec` gives the rest |
| BestScore.TrackSpec | exclusion-data-ranking/group-exclusion.py:158-160 | the best score is the maximum of 0 and every epoch's score; the kept epoch is the first one reaching it, so a later tie never replaces it; no epoch is kept exactly when none scored above 0 |
| BestScore.TrackMonotone | exclusion-data-ranking/group-exclusion.py:158-160 | the best score never decreases from one epoch to a later one |
| BestScore.BestOfEpochs | exclusion-data-ranking/group-exclusion.py:78-160 | the epoch loop returns a best score at least every epoch's score, reached by the kept epoch |
| Grid.MakeRow | exclusion-data-ranking/group-exclusion.py:251-253 | a row holds one cell per removed name plus the score, and is well formed: names first, then exactly one score at the end |
| Grid.ReadMakeRow | exclusion-data-ranking/group-exclusion.py:251-253 | a built row is names followed by one score; reading it back gives the names and the best score as its last cell |
| Grid.MakeReadRow | exclusion-data-ranking/group-exclusion.py:251-253 | every row of that shape is the row built from its names and its score |
| Experiment.PreGivesBlocks | exclusion-data-ranking/group-exclusion.py:199-223 | under the experiment's preconditions, every round's cursors lie in blocks of their own class inside the list |
| Experiment.RoundsDisjoint | exclusion-data-ranking/group-exclusion.py:206-223 | the blocks of two different rounds, taken from the first occurrences, are disjoint sets of positions; they are the removed positions only under the experiment's preconditions (`NoSampleRemovedTwice`) |
| Experiment.NoSampleRemovedTwice | exclusion-data-ranking/group-exclusion.py:206-223 | under the experiment's preconditions two different rounds both succeed, each trains on the full list without its own blocks' positions, and those position sets are disjoint, so no sample is removed twice |
| Experiment.CursorsAdvance | exclusion-data-ranking/group-exclusion.py:223 | a round moves every cursor on by `class_size`, so round `g+1` starts `(g+1)*class_size` after the first occurrences |
| Experiment.RoundStep | exclusion-data-ranking/group-exclusion.py:206-223 | under the preconditions, round `g` succeeds, removes exactly its group from the full list, records the group's names and hands on the cursors of round `g+1` |
| Experiment.Run | exclusion-data-ranking/group-exclusion.py:186-253 | the experiment raises ZeroDivisionError for a zero group size. Under its preconditions, groups that take every sample leave nothing to train on and raise ValueError. Otherwise it succeeds exactly when every round keeps an epoch above the starting 0.0, else it raises AttributeError. On success it yields `total // (class_size*N)` rows, and row `g` holds round `g`'s names followed by the best score of training without exactly that group |

## Left out

- Network construction, loss, optimizer and learning-rate scheduler (lines 69-156, 230-247): floating-point training. The training is a function parameter that yields one test score per epoch.
- The forward and backward passes and the per-epoch loss and accuracy arrays (lines 75-156): numeric work. Only the comparison at lines 158-160 is modelled.
- Copying and restoring the model weights (lines 72, 160, 169): the best epoch is recorded instead of the weights.
- Image loading, transforms, the DataLoader and its seeded shuffling (lines 27-64, 213, 227-228): I/O and randomness. Reloading the folder at line 213 yields the same sample list in the same order as the first load.
- Saving checkpoints, printing, and writing `grid.csv` (lines 249, 254-264): output only.
- BestScore: accuracies are correct-prediction counts (natural numbers) rather than floats divided by the test-set size. The division keeps the order, so the strict comparison is the same.
- Experiment.Run: `class_size` (50 at line 16) and the number of classes are parameters rather than constants.
- Experiment.Run: distinct samples, contiguous labels and enough samples per class are the hypotheses of its guarantees beyond the ZeroDivisionError case. Without them a round may raise IndexError or ValueError, or may silently remove samples of another class and go on. `RemoveRun`, `RemoveClasses` and `RemoveGroupSpec` model those rounds; `Run` states nothing about the rows it then produces.
- Experiment.Run: an empty training list fails with ValueError, the error the DataLoader's random sampler raises at line 227 for an empty dataset. That sampler is library code and is not part of this model. If it accepted the empty list, line 145 would raise ZeroDivisionError instead.
- Experiment.Run: the training function itself never fails. Whatever it does with a non-empty training list, including an empty test set, is outside the model.
- Rounds.RemoveClasses: each class's cursor is written back once, after its run, rather than after every removal. An exception aborts the script, so the two are indistinguishable.
- Rounds.RemoveClasses: requires a positive class size. With class size 0 the script never reaches the rounds, because line 206 divides by zero first.

=== FILE: bestscore.dfy ===
/**
 * The best-score bookkeeping of the training function: after every epoch the
 * test-set score is compared with the best so far, and the best (with the
 * weights of its epoch) is replaced only on a strict improvement
 * (`group-exclusion.py`, lines 72-73 and 158-160).
 *
 * A score is the number of correct test predictions. The script divides it by
 * the fixed test-set size, which keeps the order, so comparing counts is
 * comparing accuracies. The starting best, line 73, is the plain float 0.0
 * rather than a score tensor: a best with no kept epoch is still that float.
 */
module BestScore {
  import opened Wrappers

  /**
   * The best score so far and the epoch whose weights were kept; `None` stands
   * for the weights the model started with.
   */
  datatype Best = Best(acc: nat, epoch: Option<nat>)

  /** Lines 72-73: the starting weights, with best score 0. */
  const Initial: Best := Best(0, None)

  /**
   * Lines 158-160: epoch `e` with score `s` replaces the best only when `s` is
   * strictly greater; the best never drops and never stays below `s`.
   */
  function Step(b: Best, s: nat, e: nat): (r: Best)
    ensures b.acc <= r.acc && s <= r.acc
    ensures r != b <==> s > b.acc
    ensures r != b ==> r == Best(s, Some(e))
  {
    if s > b.acc then Best(s, Some(e)) else b
  }

  /** The best after the epochs `0 .. |scores|-1`, epoch `e` scoring `scores[e]`. */
  function Track(scores: seq<nat>): (b: Best)
    ensures b.epoch.Some? ==> b.epoch.value < |scores|
    decreases |scores|
  {
    if |scores| == 0 then Initial
    else Step(Track(scores[..|scores| - 1]), scores[|scores| - 1], |scores| - 1)
  }

  /**
   * The best score is the maximum of 0 and every epoch's score. The kept epoch
   * is the FIRST epoch reaching it, so a later tie never replaces it; no epoch
   * is kept exactly when no epoch scored above 0.
   */
  lemma {:induction false} TrackSpec(scores: seq<nat>)
    ensures forall e :: 0 <= e < |scores| ==> scores[e] <= Track(scores).acc
    ensures Track(scores).epoch.None? <==> forall e :: 0 <= e < |scores| ==> scores[e] == 0
    ensures Track(scores).epoch.None? ==> Track(scores).acc == 0
    ensures Track(scores).epoch.Some? ==>
      && Track(scores).epoch.value < |scores|
      && scores[Track(scores).epoch.value] == Track(scores).acc
      && forall d :: 0 <= d < Track(scores).epoch.value ==> scores[d] < Track(scores).acc
    decreases |scores|
  {
    if |scores| > 0 {
      var prefix := scores[..|scores| - 1];
      TrackSpec(prefix);
      assert forall e :: 0 <= e < |prefix| ==> scores[e] == prefix[e];
    }
  }

  /** The best score never goes down from one epoch to a later one. */
  lemma TrackMonotone(scores: seq<nat>, i: nat, j: nat)
    requires i <= j <= |scores|
    ensures Track(scores[..i]).acc <= Track(scores[..j]).acc
  {
    TrackSpec(scores[..i]);
    TrackSpec(scores[..j]);
    var b := Track(scores[..i]);
    if b.epoch.Some? {
      assert scores[..i][b.epoch.value] == scores[..j][b.epoch.value];
    }
  }

  /**
   * Lines 78-160: the epoch loop of the training function, keeping the best
   * score and its epoch; the training itself yields the scores.
   */
  method BestOfEpochs(scores: seq<nat>) returns (best: Best)
    ensures best == Track(scores)
    ensures best.epoch.Some? ==> best.epoch.value < |scores| && scores[best.epoch.value] == best.acc
    ensures forall e :: 0 <= e < |scores| ==> scores[e] <= best.acc
  {
    best := Initial;
    for e := 0 to |scores|
      invariant best == Track(scores[..e])
    {
      assert scores[..e + 1][..e] == scores[..e];
      best := Step(best, scores[e], e);
    }
    assert scores[..|scores|] == scores;
    TrackSpec(scores);
  }
}

=== FILE: cursors.dfy ===
/**
 * The per-class cursors: for each class label, the position in the global
 * label list where that class first occurs (`group-exclusion.py`, lines
 * 199-204).
 */
module Cursors {
  import opened Wrappers
  import opened PyLists

  /** Every class label below `numClasses` occurs in `labels`. */
  predicate AllPresent(labels: seq<nat>, numClasses: nat) {
    forall r :: 0 <= r < numClasses ==> r in labels
  }

  /** Position `i` holds label `r` and no earlier position does. */
  predicate IsFirst(labels: seq<nat>, r: nat, i: nat) {
    i < |labels| && labels[i] == r && forall j :: 0 <= j < i ==> labels[j] != r
  }

  /** Samples of one class are never separated by a sample of another class. */
  predicate Contiguous(labels: seq<nat>) {
    forall i, j, k :: 0 <= i < j < k < |labels| && labels[i] == labels[k] ==> labels[j] == labels[i]
  }

  /**
   * Reference definition of the cursor list: for the classes `0..numClasses-1`
   * in order, the first position of each class that occurs; an absent class
   * contributes nothing, so the list is then shorter than `numClasses`.
   */
  function FirstOccurrences(labels: seq<nat>, numClasses: nat): (idx: seq<nat>)
    ensures |idx| <= numClasses
  {
    if numClasses == 0 then []
    else
      FirstOccurrences(labels, numClasses - 1)
      + (match Find(labels, numClasses - 1) case Some(i) => [i] case None => [])
  }

  /**
   * The cursor list has one entry per class exactly when every class occurs,
   * and then entry `r` is the first position of class `r`.
   */
  lemma {:induction false} FirstOccurrencesSpec(labels: seq<nat>, numClasses: nat)
    ensures |FirstOccurrences(labels, numClasses)| == numClasses <==> AllPresent(labels, numClasses)
    ensures AllPresent(labels, numClasses) ==>
      forall r :: 0 <= r < numClasses ==> IsFirst(labels, r, FirstOccurrences(labels, numClasses)[r])
  {
    if numClasses > 0 {
      var n := numClasses - 1;
      FirstOccurrencesSpec(labels, n);
      var prev := FirstOccurrences(labels, n);
      if n in labels {
        if AllPresent(labels, numClasses) {
          var idx := FirstOccurrences(labels, numClasses);
          FindFirst(labels, n);
          assert idx == prev + [Find(labels, n).value];
          assert forall r :: 0 <= r < n ==> idx[r] == prev[r];
        }
        if |FirstOccurrences(labels, numClasses)| == numClasses {
          assert AllPresent(labels, n);
        }
      } else {
        assert !AllPresent(labels, numClasses);
      }
    }
  }

  /**
   * Lines 199-204: for each class `r`, scan the labels from the start and
   * record the first position holding `r`.
   */
  method InitCursors(labels: seq<nat>, numClasses: nat) returns (idx: seq<nat>)
    ensures idx == FirstOccurrences(labels, numClasses)
    ensures |idx| == numClasses <==> AllPresent(labels, numClasses)
    ensures AllPresent(labels, numClasses) ==>
      forall r :: 0 <= r < numClasses ==> IsFirst(labels, r, idx[r])
  {
    idx := [];
    var r := 0;
    while r < numClasses
      invariant r <= numClasses
      invariant idx == FirstOccurrences(labels, r)
    {
      var x := 0;
      while x < |labels|
        invariant x <= |labels|
        invariant idx == FirstOccurrences(labels, r)
        invariant forall j :: 0 <= j < x ==> labels[j] != r
      {
        if labels[x] == r {
          FindAt(labels, r, x);
          idx := idx + [x];
          break;
        }
        x := x + 1;
      }
      r := r + 1;
    }
    FirstOccurrencesSpec(labels, numClasses);
  }

  /** The end of the run of `r`s that starts at position `j`. */
  function RunEnd(labels: seq<nat>, r: nat, j: nat): (e: nat)
    requires j <= |labels|
    ensures j <= e <= |labels|
    ensures forall p :: j <= p < e ==> labels[p] == r
    ensures e == |labels| || labels[e] != r
    decreases |labels| - j
  {
    if j < |labels| && labels[j] == r then RunEnd(labels, r, j + 1) else j
  }

  /** A sequence made only of `r`s holds `r` as many times as it is long. */
  lemma {:induction false} CountUniform(s: seq<nat>, r: nat)
    requires forall p :: 0 <= p < |s| ==> s[p] == r
    ensures multiset(s)[r] == |s|
  {
    if |s| > 0 {
      CountUniform(s[1..], r);
      assert s == [s[0]] + s[1..];
    }
  }

  /**
   * With contiguous labels, a class that occurs `len` times or more fills the
   * `len` positions starting at its first occurrence.
   */
  lemma ClassRun(labels: seq<nat>, r: nat, f: nat, len: nat)
    requires Contiguous(labels)
    requires IsFirst(labels, r, f)
    requires multiset(labels)[r] >= len
    ensures f + len <= |labels|
    ensures forall j :: f <= j < f + len ==> labels[j] == r
  {
    var e := RunEnd(labels, r, f);
    var before: seq<nat>, run: seq<nat>, after: seq<nat> := labels[..f], labels[f..e], labels[e..];
    assert multiset(labels) == multiset(before) + multiset(run) + multiset(after) by {
      assert labels == before + run + after;
    }
    assert multiset(before)[r] == 0 by {
      assert r !in before;
    }
    assert multiset(after)[r] == 0 by {
      forall q | e <= q < |labels|
        ensures labels[q] != r
      {
        assert labels[f] == r && labels[e] != r;
      }
      assert r !in after;
    }
    assert multiset(run)[r] == e - f by {
      CountUniform(run, r);
    }
  }
}

=== FILE: experiment.dfy ===
/**
 * The whole experiment, `group-exclusion.py` lines 186-253: build the label
 * and image-name lists, place the cursors, then run every round (remove a
 * balanced group, train, record the row). Training is a parameter: given the
 * round number and the training list, it yields the test score of every epoch.
 */
module Experiment {
  import opened Wrappers
  import opened PyLists
  import opened Samples
  import opened Cursors
  import opened Rounds
  import opened BestScore
  import opened Grid

  /** Every cursor moved on by `d`. */
  function Shift(cursors: seq<nat>, d: nat): (after: seq<nat>)
    ensures |after| == |cursors|
  {
    seq(|cursors|, m requires 0 <= m < |cursors| => cursors[m] + d)
  }

  /** A round that moves every class's cursor moves all cursors by `classSize`. */
  lemma MovedAll(cursors: seq<nat>, numClasses: nat, classSize: nat)
    requires |cursors| <= numClasses
    ensures Moved(cursors, 0, numClasses, classSize) == Shift(cursors, classSize)
  {
  }

  /** Two shifts add up. */
  lemma ShiftShift(cursors: seq<nat>, a: nat, b: nat)
    ensures Shift(Shift(cursors, a), b) == Shift(cursors, a + b)
  {
  }

  /**
   * The conditions under which every round takes its own class's block: a
   * positive group size, distinct samples (the folder's paths are unique),
   * every class present, the samples of each class adjacent, and every class
   * holding `classSize` samples per round. Without them a round may raise
   * IndexError or ValueError, or may silently remove samples of another class
   * (`RemoveGroupSpec` says what a round does for any cursors).
   */
  predicate ExperimentPre(samples: seq<Sample>, numClasses: nat, classSize: nat) {
    && classSize > 0 && numClasses > 0
    && Distinct(samples)
    && AllPresent(Labels(samples), numClasses)
    && Contiguous(Labels(samples))
    && forall r :: 0 <= r < numClasses ==>
         multiset(Labels(samples))[r] >= (|samples| / (classSize * numClasses)) * classSize
  }

  /** The cursors at the start of round `g`: the first occurrences, moved on by `g` blocks. */
  function RoundCursors(samples: seq<Sample>, numClasses: nat, classSize: nat, g: nat): seq<nat> {
    Shift(FirstOccurrences(Labels(samples), numClasses), g * classSize)
  }

  /** The training list of round `g`: the full list without that round's positions, in order. */
  function RoundTraining(samples: seq<Sample>, numClasses: nat, classSize: nat, g: nat): seq<Sample> {
    Keep(samples, RoundSet(samples, RoundCursors(samples, numClasses, classSize, g), classSize, numClasses))
  }

  /**
   * The row round `g` is meant to record: the image names of its group, then
   * the best score of training on its training list.
   */
  function ExpectedRow(samples: seq<Sample>, numClasses: nat, classSize: nat,
                       train: (nat, seq<Sample>) -> seq<nat>, g: nat): seq<Cell> {
    var cursors := RoundCursors(samples, numClasses, classSize, g);
    if InRange(|samples|, cursors, 0, numClasses, classSize) then
      MakeRow(ImageList(Group(samples, cursors, classSize, numClasses)),
              Track(train(g, RoundTraining(samples, numClasses, classSize, g))).acc)
    else []
  }

  /** The rows of the first `n` rounds. */
  function ExpectedRows(samples: seq<Sample>, numClasses: nat, classSize: nat,
                        train: (nat, seq<Sample>) -> seq<nat>, n: nat): (rows: seq<seq<Cell>>)
    ensures |rows| == n
    ensures forall g :: 0 <= g < n ==> rows[g] == ExpectedRow(samples, numClasses, classSize, train, g)
  {
    seq(n, g requires 0 <= g < n => ExpectedRow(samples, numClasses, classSize, train, g))
  }

  /** One more round adds its row at the end. */
  lemma ExpectedRowsSnoc(samples: seq<Sample>, numClasses: nat, classSize: nat,
                         train: (nat, seq<Sample>) -> seq<nat>, n: nat)
    ensures ExpectedRows(samples, numClasses, classSize, train, n + 1)
         == ExpectedRows(samples, numClasses, classSize, train, n) + [ExpectedRow(samples, numClasses, classSize, train, n)]
  {
  }

  /**
   * Under the experiment's preconditions every round's cursors lie in blocks
   * of their own class: round `g` of class `r` covers the samples
   * `g * classSize .. (g + 1) * classSize - 1` after the class's first one.
   */
  lemma PreGivesBlocks(samples: seq<Sample>, numClasses: nat, classSize: nat, g: nat)
    requires ExperimentPre(samples, numClasses, classSize)
    requires g < |samples| / (classSize * numClasses)
    ensures RoundReady(samples, RoundCursors(samples, numClasses, classSize, g), numClasses, classSize)
  {
    var cursors := RoundCursors(samples, numClasses, classSize, g);
    FirstOccurrencesSpec(Labels(samples), numClasses);
    forall r | 0 <= r < numClasses
      ensures cursors[r] + classSize <= |samples|
      ensures forall j :: cursors[r] <= j < cursors[r] + classSize ==> samples[j].target == r
    {
      ClassBlock(samples, numClasses, classSize, g, r);
    }
  }

  /** Round `g`'s block of class `r` lies inside the list and holds only samples of class `r`. */
  lemma ClassBlock(samples: seq<Sample>, numClasses: nat, classSize: nat, g: nat, r: nat)
    requires ExperimentPre(samples, numClasses, classSize)
    requires g < |samples| / (classSize * numClasses) && r < numClasses
    ensures |RoundCursors(samples, numClasses, classSize, g)| == numClasses
    ensures RoundCursors(samples, numClasses, classSize, g)[r] + classSize <= |samples|
    ensures forall j :: RoundCursors(samples, numClasses, classSize, g)[r] <= j < RoundCursors(samples, numClasses, classSize, g)[r] + classSize
              ==> samples[j].target == r
  {
    var labels := Labels(samples);
    var init := FirstOccurrences(labels, numClasses);
    FirstOccurrencesSpec(labels, numClasses);
    var start := init[r] + g * classSize;
    assert RoundCursors(samples, numClasses, classSize, g)[r] == start;
    LabelBlock(labels, r, init[r], g, |samples| / (classSize * numClasses), classSize);
  }

  /**
   * In contiguous labels where class `r` first occurs at `f` and occurs at
   * least `rounds * k` times, block `g < rounds` of length `k` after `f` is
   * all `r`.
   */
  lemma LabelBlock(labels: seq<nat>, r: nat, f: nat, g: nat, rounds: nat, k: nat)
    requires Contiguous(labels) && IsFirst(labels, r, f)
    requires multiset(labels)[r] >= rounds * k && g < rounds
    ensures f + g * k + k <= |labels|
    ensures forall j :: f + g * k <= j < f + g * k + k ==> labels[j] == r
  {
    MulStep(g, rounds, k);
    ClassRun(labels, r, f, rounds * k);
  }

  /**
   * The blocks of two different rounds are disjoint. Under `ExperimentPre`
   * these are exactly the positions the rounds remove (`RoundStep`,
   * `RoundSetBlocks`), so no sample is removed twice; without it a round may
   * remove samples outside its blocks and this says nothing about them.
   */
  lemma RoundsDisjoint(samples: seq<Sample>, numClasses: nat, classSize: nat, g1: nat, g2: nat)
    requires g1 < g2
    ensures RoundSet(samples, RoundCursors(samples, numClasses, classSize, g1), classSize, numClasses)
          * RoundSet(samples, RoundCursors(samples, numClasses, classSize, g2), classSize, numClasses) == {}
  {
    var a := RoundSet(samples, RoundCursors(samples, numClasses, classSize, g1), classSize, numClasses);
    var b := RoundSet(samples, RoundCursors(samples, numClasses, classSize, g2), classSize, numClasses);
    MulStep(g1, g2, classSize);
    forall j | j in a
      ensures j !in b
    {
    }
  }

  /**
   * No sample is removed twice: under the experiment's preconditions two
   * different rounds both succeed, each trains on the full list without the
   * positions of its own blocks, and those two sets of positions are disjoint.
   */
  lemma NoSampleRemovedTwice(samples: seq<Sample>, imagelist: seq<string>, numClasses: nat, classSize: nat, g1: nat, g2: nat)
    requires ExperimentPre(samples, numClasses, classSize) && imagelist == ImageList(samples)
    requires g1 < g2 < |samples| / (classSize * numClasses)
    ensures RemoveGroup(samples, imagelist, RoundCursors(samples, numClasses, classSize, g1), numClasses, classSize).Ok?
    ensures RemoveGroup(samples, imagelist, RoundCursors(samples, numClasses, classSize, g1), numClasses, classSize).value.training
         == Keep(samples, RoundSet(samples, RoundCursors(samples, numClasses, classSize, g1), classSize, numClasses))
    ensures RemoveGroup(samples, imagelist, RoundCursors(samples, numClasses, classSize, g2), numClasses, classSize).Ok?
    ensures RemoveGroup(samples, imagelist, RoundCursors(samples, numClasses, classSize, g2), numClasses, classSize).value.training
         == Keep(samples, RoundSet(samples, RoundCursors(samples, numClasses, classSize, g2), classSize, numClasses))
    ensures RoundSet(samples, RoundCursors(samples, numClasses, classSize, g1), classSize, numClasses)
          * RoundSet(samples, RoundCursors(samples, numClasses, classSize, g2), classSize, numClasses) == {}
  {
    hide RemoveGroup;
    hide RoundSet;
    hide Keep;
    hide Group;
    hide ExperimentPre;
    hide RoundCursors;
    RoundStep(samples, imagelist, numClasses, classSize, g1);
    RoundStep(samples, imagelist, numClasses, classSize, g2);
    RoundsDisjoint(samples, numClasses, classSize, g1, g2);
  }

  /**
   * Round `g` of an experiment meeting its preconditions succeeds: it trains
   * on that round's training list, records the image names of its group, and
   * leaves the cursors where round `g + 1` starts.
   */
  lemma RoundStep(samples: seq<Sample>, imagelist: seq<string>, numClasses: nat, classSize: nat, g: nat)
    requires ExperimentPre(samples, numClasses, classSize) && imagelist == ImageList(samples)
    requires g < |samples| / (classSize * numClasses)
    ensures InRange(|samples|, RoundCursors(samples, numClasses, classSize, g), 0, numClasses, classSize)
    ensures RemoveGroup(samples, imagelist, RoundCursors(samples, numClasses, classSize, g), numClasses, classSize)
         == Ok(RoundOutcome(RoundTraining(samples, numClasses, classSize, g),
                            ImageList(Group(samples, RoundCursors(samples, numClasses, classSize, g), classSize, numClasses)),
                            RoundCursors(samples, numClasses, classSize, g + 1)))
    ensures |RoundTraining(samples, numClasses, classSize, g)| == |samples| - numClasses * classSize
  {
    var cursors := RoundCursors(samples, numClasses, classSize, g);
    var next := Moved(cursors, 0, numClasses, classSize);
    PreGivesBlocks(samples, numClasses, classSize, g);
    assert RemoveGroup(samples, imagelist, cursors, numClasses, classSize)
        == Ok(RoundOutcome(RoundTraining(samples, numClasses, classSize, g),
                           ImageList(Group(samples, cursors, classSize, numClasses)), next)) by {
      RemoveGroupReady(samples, imagelist, cursors, numClasses, classSize);
    }
    CursorsAdvance(samples, numClasses, classSize, g);
    RoundTrainingSize(samples, imagelist, cursors, numClasses, classSize);
  }

  /**
   * Every round moves each cursor on by exactly `classSize`, so round `g + 1`
   * starts `(g + 1) * classSize` after the first occurrences.
   */
  lemma CursorsAdvance(samples: seq<Sample>, numClasses: nat, classSize: nat, g: nat)
    ensures Moved(RoundCursors(samples, numClasses, classSize, g), 0, numClasses, classSize)
         == RoundCursors(samples, numClasses, classSize, g + 1)
  {
    var init := FirstOccurrences(Labels(samples), numClasses);
    MovedAll(RoundCursors(samples, numClasses, classSize, g), numClasses, classSize);
    ShiftShift(init, g * classSize, classSize);
    MulSucc(g, classSize);
  }

  /** Groups that take every sample make one round. */
  lemma OneRound(numClasses: nat, classSize: nat)
    requires classSize * numClasses > 0
    ensures (numClasses * classSize) / (classSize * numClasses) == 1
  {
  }

  /**
   * Round `g` keeps an epoch: some epoch of its training beats the starting
   * best, so the training function returns a score tensor and not the plain
   * float 0.0 of line 73.
   */
  predicate KeepsEpoch(samples: seq<Sample>, numClasses: nat, classSize: nat,
                       train: (nat, seq<Sample>) -> seq<nat>, g: nat) {
    Track(train(g, RoundTraining(samples, numClasses, classSize, g))).epoch.Some?
  }

  /** The experiment's groups are not empty. */
  lemma PrePositive(samples: seq<Sample>, numClasses: nat, classSize: nat)
    requires ExperimentPre(samples, numClasses, classSize)
    ensures classSize * numClasses > 0
  {
  }

  /** Round 0 starts at the first occurrences. */
  lemma CursorsAtStart(samples: seq<Sample>, numClasses: nat, classSize: nat)
    ensures RoundCursors(samples, numClasses, classSize, 0) == FirstOccurrences(Labels(samples), numClasses)
  {
  }

  /** Whether round `g` keeps an epoch is read off its training's best. */
  lemma KeepsEpochIs(samples: seq<Sample>, numClasses: nat, classSize: nat,
                     train: (nat, seq<Sample>) -> seq<nat>, g: nat)
    ensures KeepsEpoch(samples, numClasses, classSize, train, g)
        <==> Track(train(g, RoundTraining(samples, numClasses, classSize, g))).epoch.Some?
  {
  }

  /** The row a round with its blocks in range is meant to record. */
  lemma RowOfRound(samples: seq<Sample>, numClasses: nat, classSize: nat,
                   train: (nat, seq<Sample>) -> seq<nat>, g: nat)
    requires InRange(|samples|, RoundCursors(samples, numClasses, classSize, g), 0, numClasses, classSize)
    ensures ExpectedRow(samples, numClasses, classSize, train, g)
         == MakeRow(ImageList(Group(samples, RoundCursors(samples, numClasses, classSize, g), classSize, numClasses)),
                    Track(train(g, RoundTraining(samples, numClasses, classSize, g))).acc)
  {
  }

  /**
   * Lines 186-253: the experiment. It fails with ZeroDivisionError when the
   * group size is 0. Under `ExperimentPre`:
   * - when the groups take every sample, the one round has nothing to train
   *   on and the DataLoader of line 227 raises ValueError;
   * - otherwise the experiment succeeds exactly when every round keeps an
   *   epoch, and fails with the AttributeError of line 251 when one does not;
   * - on success it holds one row per round, `|samples| / (classSize *
   *   numClasses)` of them, and row `g` holds the image names of round `g`'s
   *   group and the best score of training without exactly that group.
   */
  method Run(samples: seq<Sample>, numClasses: nat, classSize: nat, train: (nat, seq<Sample>) -> seq<nat>)
    returns (r: Result<seq<seq<Cell>>, Exception>)
    ensures classSize * numClasses == 0 ==> r == Err(ZeroDivisionError)
    ensures ExperimentPre(samples, numClasses, classSize) && |samples| == numClasses * classSize ==>
      r == Err(ValueError)
    ensures ExperimentPre(samples, numClasses, classSize) && |samples| != numClasses * classSize ==>
      (r.Ok? <==> forall g :: 0 <= g < |samples| / (classSize * numClasses) ==> KeepsEpoch(samples, numClasses, classSize, train, g))
    ensures ExperimentPre(samples, numClasses, classSize) && |samples| != numClasses * classSize && r.Err? ==>
      r == Err(AttributeError)
    ensures ExperimentPre(samples, numClasses, classSize) && r.Ok? ==>
      && |r.value| == |samples| / (classSize * numClasses)
      && forall g :: 0 <= g < |r.value| ==> r.value[g] == ExpectedRow(samples, numClasses, classSize, train, g)
  {
    hide ExperimentPre;
    hide RemoveGroup;
    hide ExpectedRow;
    hide ExpectedRows;
    hide KeepsEpoch;
    hide Track;
    hide RoundCursors;
    hide RoundTraining;
    hide FirstOccurrences;
    hide AllPresent;
    hide IsFirst;
    // Lines 186-194: the label list and the image-name list.
    var labels := Labels(samples);
    var imagelist := ImageList(samples);
    // Lines 199-204.
    var cursors := InitCursors(labels, numClasses);
    // Line 206.
    if ExperimentPre(samples, numClasses, classSize) {
      PrePositive(samples, numClasses, classSize);
    }
    var rounds :- RoundCount(|samples|, classSize, numClasses);
    ghost var pre := ExperimentPre(samples, numClasses, classSize);
    ghost var empty := |samples| == numClasses * classSize;
    CursorsAtStart(samples, numClasses, classSize);
    var grid: seq<seq<Cell>> := [];
    for g := 0 to rounds
      invariant pre ==> cursors == RoundCursors(samples, numClasses, classSize, g)
      invariant pre ==> grid == ExpectedRows(samples, numClasses, classSize, train, g)
      invariant pre ==> forall h :: 0 <= h < g ==> KeepsEpoch(samples, numClasses, classSize, train, h)
      invariant pre && empty ==> g == 0
    {
      if pre {
        RoundStep(samples, imagelist, numClasses, classSize, g);
      }
      // Lines 213-223.
      var round :- RemoveGroup(samples, imagelist, cursors, numClasses, classSize);
      assert pre ==> round.training == RoundTraining(samples, numClasses, classSize, g);
      // Lines 227-228: the DataLoader's random sampler refuses an empty training list.
      if |round.training| == 0 {
        assert pre ==> empty;
        return Err(ValueError);
      }
      // Lines 230-247: training, reduced to its scores per epoch.
      var best := BestOfEpochs(train(g, round.training));
      // Line 251: `.item()` needs the score tensor of a kept epoch.
      if best.epoch.None? {
        assert pre ==> !empty && !KeepsEpoch(samples, numClasses, classSize, train, g) by {
          KeepsEpochIs(samples, numClasses, classSize, train, g);
        }
        return Err(AttributeError);
      }
      var row := MakeRow(round.row, best.acc);
      if pre {
        RowOfRound(samples, numClasses, classSize, train, g);
      }
      ExpectedRowsSnoc(samples, numClasses, classSize, train, g);
      grid := grid + [row];
      cursors := round.cursors;
      if pre {
        KeepsEpochIs(samples, numClasses, classSize, train, g);
      }
    }
    if pre && empty {
      OneRound(numClasses, classSize);
    }
    return Ok(grid);
  }
}

=== FILE: grid.dfy ===
/**
 * The results grid of `group-exclusion.py` (lines 216-222 and 251-253): one
 * row per round, holding the image names removed in that round followed by
 * the round's best test score.
 */
module Grid {
  import opened Wrappers

  /** A cell of a results row: an image name, or the score that ends the row. */
  datatype Cell = Name(name: string) | Score(acc: nat)

  /** Lines 216-222 and 251-253: the removed names in removal order, then the best score. */
  function MakeRow(names: seq<string>, best: nat): (row: seq<Cell>)
    ensures |row| == |names| + 1
    ensures WellFormed(row)
  {
    seq(|names|, i requires 0 <= i < |names| => Name(names[i])) + [Score(best)]
  }

  /** A well-formed row: names only, then exactly one score at the end. */
  predicate WellFormed(row: seq<Cell>) {
    |row| > 0 && row[|row| - 1].Score? && forall i :: 0 <= i < |row| - 1 ==> row[i].Name?
  }

  /** The names of a row, for a well-formed row. */
  function RowNames(row: seq<Cell>): (names: seq<string>)
    requires WellFormed(row)
  {
    seq(|row| - 1, i requires 0 <= i < |row| - 1 => row[i].name)
  }

  /** The score that ends a row, for a well-formed row. */
  function RowScore(row: seq<Cell>): nat
    requires WellFormed(row)
  {
    row[|row| - 1].acc
  }

  /** Reading back a built row gives its names and its score: the last cell is the best score. */
  lemma ReadMakeRow(names: seq<string>, best: nat)
    ensures WellFormed(MakeRow(names, best))
    ensures RowNames(MakeRow(names, best)) == names
    ensures RowScore(MakeRow(names, best)) == best
  {
  }

  /** Every well-formed row is the row built from its names and its score. */
  lemma MakeReadRow(row: seq<Cell>)
    requires WellFormed(row)
    ensures MakeRow(RowNames(row), RowScore(row)) == row
  {
    var built := MakeRow(RowNames(row), RowScore(row));
    forall i | 0 <= i < |row|
      ensures built[i] == row[i]
    {
    }
  }
}

=== FILE: pylists.dfy ===
/**
 * The Python list and string builtins the script's bookkeeping relies on:
 * first-match search (inside `list.remove` and the label scan), `list.remove`,
 * `str.rsplit('/', 1)[-1]`, and the exceptions they raise, as
 * `group-exclusion.py` uses them.
 */
module PyLists {
  import opened Wrappers

  /** The Python exceptions the modelled part of the script can raise. */
  datatype Exception = IndexError | ValueError | ZeroDivisionError | AttributeError

  /** No element occurs twice. */
  predicate Distinct<T(==)>(xs: seq<T>) {
    forall i, j :: 0 <= i < j < |xs| ==> xs[i] != xs[j]
  }

  /** Position of the first element equal to `x` at or after position `i`, or None when there is none. */
  function FindFrom<T(==)>(xs: seq<T>, x: T, i: nat): (r: Option<nat>)
    requires i <= |xs|
    ensures r.None? <==> forall j :: i <= j < |xs| ==> xs[j] != x
    ensures r.Some? ==> i <= r.value < |xs| && xs[r.value] == x
    decreases |xs| - i
  {
    if i == |xs| then None
    else if xs[i] == x then Some(i)
    else FindFrom(xs, x, i + 1)
  }

  /**
   * The search inside `list.remove` (line 220) and the label scan of lines
   * 199-204: the position of the first element equal to `x`, or None when
   * there is none.
   */
  function Find<T(==)>(xs: seq<T>, x: T): (r: Option<nat>)
    ensures r.Some? ==> r.value < |xs| && xs[r.value] == x
  {
    FindFrom(xs, x, 0)
  }

  /** Find reports nothing exactly when `x` does not occur. */
  lemma FindNone<T>(xs: seq<T>, x: T)
    ensures Find(xs, x).None? <==> x !in xs
  {
  }

  /** The position FindFrom reports is the first one from `i` holding `x`. */
  lemma {:induction false} FindFromFirst<T>(xs: seq<T>, x: T, i: nat)
    requires i <= |xs| && FindFrom(xs, x, i).Some?
    ensures forall k :: i <= k < FindFrom(xs, x, i).value ==> xs[k] != x
    decreases |xs| - i
  {
    if xs[i] != x {
      FindFromFirst(xs, x, i + 1);
    }
  }

  /** The position Find reports is the first one holding `x`. */
  lemma FindFirst<T>(xs: seq<T>, x: T)
    requires x in xs
    ensures forall k :: 0 <= k < Find(xs, x).value ==> xs[k] != x
  {
    FindFromFirst(xs, x, 0);
  }

  /** A position holding `x`, with no `x` before it, is the one Find reports. */
  lemma FindAt<T>(xs: seq<T>, x: T, i: nat)
    requires i < |xs| && xs[i] == x
    requires forall k :: 0 <= k < i ==> xs[k] != x
    ensures Find(xs, x) == Some(i)
  {
    FindFirst(xs, x);
  }

  /** `xs.remove(x)`: drops the first element equal to `x`; ValueError when there is none. */
  function Remove<T(==)>(xs: seq<T>, x: T): (r: Result<seq<T>, Exception>)
    ensures r.Err? ==> r.error == ValueError
    ensures r.Ok? ==> |r.value| == |xs| - 1
  {
    match Find(xs, x)
    case None => Err(ValueError)
    case Some(i) => Ok(xs[..i] + xs[i + 1..])
  }

  /** The removal succeeds exactly when `x` occurs. */
  lemma RemoveOk<T>(xs: seq<T>, x: T)
    ensures Remove(xs, x).Ok? <==> x in xs
  {
    FindNone(xs, x);
  }

  /** A successful removal takes away exactly one copy of `x` and nothing else. */
  lemma RemoveMultiset<T>(xs: seq<T>, x: T)
    requires x in xs
    ensures multiset(Remove(xs, x).value) + multiset{x} == multiset(xs)
  {
    var i := Find(xs, x).value;
    assert xs == xs[..i] + [x] + xs[i + 1..];
  }

  /** Removing an element that occurs in `a` leaves the tail `b` untouched. */
  lemma RemoveAppend<T>(a: seq<T>, b: seq<T>, x: T)
    requires x in a
    ensures Remove(a + b, x) == Ok(Remove(a, x).value + b)
  {
    var i := Find(a, x).value;
    FindFirst(a, x);
    assert forall m :: 0 <= m < |a| ==> (a + b)[m] == a[m];
    FindAt(a + b, x, i);
    assert (a + b)[..i] == a[..i];
    assert (a + b)[i + 1..] == a[i + 1..] + b;
    assert a[..i] + (a[i + 1..] + b) == (a[..i] + a[i + 1..]) + b;
  }

  /** `for v in vs: xs.remove(v)`: the removals one after the other, stopping at the first ValueError. */
  function RemoveEach<T(==)>(xs: seq<T>, vs: seq<T>): (r: Result<seq<T>, Exception>)
    ensures r.Err? ==> r.error == ValueError
    ensures r.Ok? ==> |r.value| == |xs| - |vs|
  {
    if |vs| == 0 then Ok(xs)
    else
      match Remove(xs, vs[0])
      case Err(e) => Err(e)
      case Ok(t) => RemoveEach(t, vs[1..])
  }

  /** Successful removals take away exactly the removed values, with multiplicity. */
  lemma {:induction false} RemoveEachMultiset<T>(xs: seq<T>, vs: seq<T>)
    requires RemoveEach(xs, vs).Ok?
    ensures multiset(RemoveEach(xs, vs).value) + multiset(vs) == multiset(xs)
  {
    if |vs| > 0 {
      var v, rest := vs[0], vs[1..];
      var t := Remove(xs, v).value;
      var r := RemoveEach(t, rest).value;
      assert RemoveEach(xs, vs).value == r;
      assert multiset(t) + multiset{v} == multiset(xs) by {
        RemoveMultiset(xs, v);
      }
      assert multiset(r) + multiset(rest) == multiset(t) by {
        RemoveEachMultiset(t, rest);
      }
      assert multiset(vs) == multiset{v} + multiset(rest) by {
        assert vs == [v] + rest;
      }
    }
  }

  /** Removing `vs + ws` is removing `vs`, then `ws`. */
  lemma {:induction false} RemoveEachAppend<T>(xs: seq<T>, vs: seq<T>, ws: seq<T>)
    ensures RemoveEach(xs, vs + ws)
         == match RemoveEach(xs, vs) case Err(e) => Err(e) case Ok(t) => RemoveEach(t, ws)
  {
    if |vs| > 0 {
      assert (vs + ws)[0] == vs[0];
      assert (vs + ws)[1..] == vs[1..] + ws;
      match Remove(xs, vs[0])
      case Err(_) =>
      case Ok(t) => RemoveEachAppend(t, vs[1..], ws);
    } else {
      assert vs + ws == ws;
    }
  }

  /** Once a removal fails, removing more elements after it fails too. */
  lemma RemoveEachFails<T>(xs: seq<T>, vs: seq<T>, ws: seq<T>)
    requires RemoveEach(xs, vs).Err?
    ensures RemoveEach(xs, vs + ws).Err?
  {
    RemoveEachAppend(xs, vs, ws);
  }

  /** The elements of `xs` whose positions are not in `drop`, in their original order. */
  function Keep<T>(xs: seq<T>, drop: set<int>): (r: seq<T>)
    ensures |r| <= |xs|
  {
    if |xs| == 0 then []
    else
      var last := |xs| - 1;
      assert xs == xs[..last] + [xs[last]];
      Keep(xs[..last], drop) + (if last in drop then [] else [xs[last]])
  }

  /** Only the positions inside `xs` matter to `Keep`. */
  lemma {:induction false} KeepAgree<T>(xs: seq<T>, a: set<int>, b: set<int>)
    requires forall i :: 0 <= i < |xs| ==> (i in a <==> i in b)
    ensures Keep(xs, a) == Keep(xs, b)
  {
    if |xs| > 0 {
      KeepAgree(xs[..|xs| - 1], a, b);
    }
  }

  /** Dropping no position keeps the whole sequence. */
  lemma {:induction false} KeepNothing<T>(xs: seq<T>)
    ensures Keep(xs, {}) == xs
  {
    if |xs| > 0 {
      KeepNothing(xs[..|xs| - 1]);
      assert xs == xs[..|xs| - 1] + [xs[|xs| - 1]];
    }
  }

  /** Everything `Keep` keeps comes from `xs`. */
  lemma {:induction false} KeepIn<T>(xs: seq<T>, drop: set<int>, y: T)
    requires y in Keep(xs, drop)
    ensures y in xs
  {
    var last := |xs| - 1;
    if y in Keep(xs[..last], drop) {
      KeepIn(xs[..last], drop, y);
    }
    assert xs == xs[..last] + [xs[last]];
  }

  /**
   * Over a list without duplicates, removing by value the element at a kept
   * position `c` is the same as additionally dropping position `c`.
   */
  lemma {:induction false} RemoveKept<T>(xs: seq<T>, drop: set<int>, c: int)
    requires Distinct(xs)
    requires 0 <= c < |xs| && c !in drop
    ensures Remove(Keep(xs, drop), xs[c]) == Ok(Keep(xs, drop + {c}))
  {
    var last := |xs| - 1;
    var p := xs[..last];
    var z := xs[last];
    var tail := if last in drop then [] else [z];
    assert Keep(xs, drop) == Keep(p, drop) + tail;
    assert Keep(xs, drop + {c}) == Keep(p, drop + {c}) + (if last in drop + {c} then [] else [z]);
    if c == last {
      assert z !in p by {
        assert forall k :: 0 <= k < |p| ==> p[k] == xs[k];
      }
      if z in Keep(p, drop) {
        KeepIn(p, drop, z);
      }
      KeepAgree(p, drop, drop + {c});
      RemoveLast(Keep(p, drop), z);
    } else {
      assert Distinct(p) by {
        assert forall k :: 0 <= k < |p| ==> p[k] == xs[k];
      }
      RemoveKept(p, drop, c);
      assert p[c] == xs[c];
      RemoveAppend(Keep(p, drop), tail, xs[c]);
    }
  }

  /** Removing an element that occurs only at the end drops exactly that end. */
  lemma RemoveLast<T>(k: seq<T>, x: T)
    requires x !in k
    ensures Remove(k + [x], x) == Ok(k)
  {
    var t := k + [x];
    var f := |k|;
    assert forall m :: 0 <= m < |k| ==> t[m] == k[m] && k[m] != x;
    FindAt(t, x, f);
    assert t[..f] + t[f + 1..] == k;
  }

  /** `path.rsplit('/', 1)[-1]`: the text after the last '/', or the whole path. */
  function Basename(path: string): (name: string)
    ensures '/' !in name
    ensures |name| <= |path|
  {
    if |path| == 0 then ""
    else if path[|path| - 1] == '/' then ""
    else Basename(path[..|path| - 1]) + [path[|path| - 1]]
  }

  /**
   * The basename is a suffix of the path without any '/', and it is either
   * the whole path or preceded by a '/'.
   */
  lemma {:induction false} BasenameSpec(path: string)
    ensures '/' !in Basename(path)
    ensures |Basename(path)| <= |path| && Basename(path) == path[|path| - |Basename(path)|..]
    ensures forall k :: |path| - |Basename(path)| <= k < |path| ==> path[k] != '/'
    ensures |Basename(path)| == |path| || path[|path| - |Basename(path)| - 1] == '/'
  {
    if |path| > 0 && path[|path| - 1] != '/' {
      var prefix := path[..|path| - 1];
      BasenameSpec(prefix);
      var b := Basename(prefix);
      var start := |prefix| - |b|;
      assert Basename(path) == b + [path[|path| - 1]];
      assert path[start..] == prefix[start..] + [path[|path| - 1]];
      assert forall k :: 0 <= k < |prefix| ==> path[k] == prefix[k];
    }
  }

  /** The basename of a directory joined with a slash-free file name is that file name. */
  lemma BasenameOfJoin(dir: string, name: string)
    requires '/' !in name
    ensures Basename(dir + "/" + name) == name
  {
    var path := dir + "/" + name;
    assert path[|path| - |name|..] == name;
    assert forall k :: |path| - |name| <= k < |path| ==> path[k] == name[k - (|path| - |name|)];
    assert path[|path| - |name| - 1] == '/';
    BasenameUnique(path, name);
  }

  /**
   * Basename is the one suffix that holds no '/' and is either the whole
   * path or preceded by a '/'.
   */
  lemma {:induction false} BasenameUnique(path: string, s: string)
    requires |s| <= |path| && s == path[|path| - |s|..]
    requires forall k :: |path| - |s| <= k < |path| ==> path[k] != '/'
    requires |s| == |path| || path[|path| - |s| - 1] == '/'
    ensures Basename(path) == s
  {
    if |s| > 0 {
      var prefix, last := path[..|path| - 1], path[|path| - 1];
      var init := s[..|s| - 1];
      SuffixInit(path, s, prefix, init);
      BasenameUnique(prefix, init);
      assert last != '/';
      assert Basename(path) == Basename(prefix) + [last];
      assert s == init + [last];
    }
  }

  /**
   * Dropping the last character of the path and of a slash-free suffix keeps
   * the suffix slash-free and either whole or preceded by a '/'.
   */
  lemma SuffixInit(path: string, s: string, prefix: string, init: string)
    requires 0 < |s| <= |path| && s == path[|path| - |s|..]
    requires forall k :: |path| - |s| <= k < |path| ==> path[k] != '/'
    requires |s| == |path| || path[|path| - |s| - 1] == '/'
    requires prefix == path[..|path| - 1] && init == s[..|s| - 1]
    ensures |init| <= |prefix| && init == prefix[|prefix| - |init|..]
    ensures forall k :: |prefix| - |init| <= k < |prefix| ==> prefix[k] != '/'
    ensures |init| == |prefix| || prefix[|prefix| - |init| - 1] == '/'
  {
    assert forall k :: 0 <= k < |init| ==> init[k] == s[k] == path[|path| - |s| + k];
  }

  /** A name without '/' is its own basename; in particular Basename is idempotent. */
  lemma BasenameOfName(name: string)
    requires '/' !in name
    ensures Basename(name) == name
  {
    BasenameUnique(name, name);
  }

  /** The positions `c .. c + k - 1`, added one by one. */
  function Span(c: nat, k: nat): set<int> {
    if k == 0 then {} else Span(c, k - 1) + {c + k - 1}
  }

  /** The span from `c` of width `k` holds exactly the positions `c <= j < c + k`. */
  lemma {:induction false} SpanHas(c: nat, k: nat)
    ensures forall j :: j in Span(c, k) <==> c <= j < c + k
  {
    if k > 0 {
      SpanHas(c, k - 1);
    }
  }

  /** The span from `c` is `c` followed by the span from `c + 1`. */
  lemma SpanStep(drop: set<int>, c: nat, k: nat, c1: nat, k1: nat)
    requires c1 == c + 1 && k1 + 1 == k
    ensures drop + {c} + Span(c1, k1) == drop + Span(c, k)
  {
    SpanHas(c, k);
    SpanHas(c1, k1);
    forall j: int
      ensures j in drop + {c} + Span(c1, k1) <==> j in drop + Span(c, k)
    {
    }
  }

  /**
   * Removing a stretch by value from the full list minus `drop`, when
   * none of its positions was dropped yet, drops its positions too.
   */
  lemma {:induction false} RemoveEachKept<T>(xs: seq<T>, drop: set<int>, c: nat, k: nat)
    requires Distinct(xs) && c + k <= |xs|
    requires forall j :: c <= j < c + k ==> j !in drop
    ensures RemoveEach(Keep(xs, drop), xs[c..c + k]) == Ok(Keep(xs, drop + Span(c, k)))
    decreases k
  {
    var block := xs[c..c + k];
    if k == 0 {
      assert drop + Span(c, 0) == drop;
      assert block == [];
    } else {
      hide RemoveEach;
      hide Keep;
      hide Span;
      var next := drop + {c};
      var c1, k1 := c + 1, k - 1;
      var rest := xs[c1..c1 + k1];
      assert RemoveEach(Keep(xs, drop), block) == RemoveEach(Keep(xs, next), rest) by {
        RemoveKept(xs, drop, c);
        SliceCons(xs, c, k, c1, k1);
        RemoveEachCons(Keep(xs, drop), xs[c], rest);
      }
      RemoveEachKept(xs, next, c1, k1);
      SpanStep(drop, c, k, c1, k1);
    }
  }

  /** Removing `x` and then `rest` is removing `[x] + rest`. */
  lemma RemoveEachCons<T>(xs: seq<T>, x: T, rest: seq<T>)
    ensures Remove(xs, x).Err? ==> RemoveEach(xs, [x] + rest) == Err(ValueError)
    ensures Remove(xs, x).Ok? ==> RemoveEach(xs, [x] + rest) == RemoveEach(Remove(xs, x).value, rest)
  {
    assert ([x] + rest)[0] == x && ([x] + rest)[1..] == rest;
  }

  /** A non-empty stretch of a list is its first entry followed by the rest of the stretch. */
  lemma SliceCons<T>(xs: seq<T>, c: nat, k: nat, c1: nat, k1: nat)
    requires c1 == c + 1 && k1 + 1 == k && c + k <= |xs|
    ensures xs[c..c + k] == [xs[c]] + xs[c1..c1 + k1]
  {
  }
}

=== FILE: rounds.dfy ===
/**
 * One ablation round: the training list is rebuilt in full, then for every
 * class in order the `classSize` samples starting at that class's cursor are
 * removed by value, their image names are recorded, and the cursor advances
 * (`group-exclusion.py`, lines 206-223).
 */
module Rounds {
  import opened Wrappers
  import opened PyLists
  import opened Samples

  /**
   * The number of rounds, `total // (classSize * numClasses)`, fixed once
   * before the loop; a zero divisor raises ZeroDivisionError.
   */
  function RoundCount(total: nat, classSize: nat, numClasses: nat): (r: Result<nat, Exception>)
    ensures r.Err? <==> classSize * numClasses == 0
    ensures r.Err? ==> r.error == ZeroDivisionError
    ensures r.Ok? ==> r.value * (classSize * numClasses) <= total
    ensures r.Ok? ==> total < (r.value + 1) * (classSize * numClasses)
  {
    var groupSize := classSize * numClasses;
    if groupSize == 0 then Err(ZeroDivisionError) else Ok(total / groupSize)
  }

  /**
   * The classes `lo .. hi-1` have a cursor, and the `classSize` positions
   * from it fit in a list of length `len`.
   */
  predicate InRange(len: nat, cursors: seq<nat>, lo: nat, hi: nat, classSize: nat) {
    (lo < hi ==> hi <= |cursors|) && forall m :: lo <= m < hi ==> cursors[m] + classSize <= len
  }

  /**
   * Each class `m < n` owns the `classSize` positions starting at its cursor:
   * they exist and all hold samples labelled `m`.
   */
  predicate BlocksUpTo(global: seq<Sample>, cursors: seq<nat>, n: nat, classSize: nat) {
    && InRange(|global|, cursors, 0, n, classSize)
    && (forall m, j :: 0 <= m < n && cursors[m] <= j < cursors[m] + classSize ==>
          j < |global| && global[j].target == m)
  }

  /** One cursor per class, and every class owns its block. */
  predicate Blocks(global: seq<Sample>, cursors: seq<nat>, numClasses: nat, classSize: nat) {
    |cursors| == numClasses && BlocksUpTo(global, cursors, numClasses, classSize)
  }

  /** What a round needs to finish: distinct samples and one block per class. */
  predicate RoundReady(global: seq<Sample>, cursors: seq<nat>, numClasses: nat, classSize: nat) {
    Distinct(global) && Blocks(global, cursors, numClasses, classSize)
  }

  /**
   * The positions removed once the classes below `n` are done, described by
   * the label each one holds: position `j` with label `m < n` is removed when
   * it lies in class `m`'s block.
   */
  function RemovedSoFar(global: seq<Sample>, cursors: seq<nat>, classSize: nat, n: nat): set<int> {
    set j | 0 <= j < |global| && global[j].target < n && global[j].target < |cursors|
      && cursors[global[j].target] <= j < cursors[global[j].target] + classSize
  }

  /**
   * The positions inside the classes' blocks, described by label. A round over
   * distinct samples removes exactly these when every class owns its block
   * (`RemoveGroupReady`).
   */
  function RoundSet(global: seq<Sample>, cursors: seq<nat>, classSize: nat, numClasses: nat): set<int> {
    RemovedSoFar(global, cursors, classSize, numClasses)
  }

  /** The number of group entries the classes `n .. m-1` take before class `m`'s stretch. */
  function Before(n: nat, m: nat, classSize: nat): nat
    decreases m - n
  {
    if m <= n then 0 else classSize + Before(n + 1, m, classSize)
  }

  /** Each class before `m` takes one stretch of `classSize`. */
  lemma {:induction false} BeforeIsMul(n: nat, m: nat, classSize: nat)
    requires n <= m
    ensures Before(n, m, classSize) == (m - n) * classSize
    decreases m - n
  {
    if n < m {
      BeforeIsMul(n + 1, m, classSize);
      MulSucc(m - n - 1, classSize);
    }
  }

  /**
   * What the classes `n .. numClasses-1` give up, read off a list parallel
   * to the samples (the samples themselves, or their image names): class by
   * class, the `classSize` entries starting at each class's cursor.
   */
  function GroupFrom<T>(xs: seq<T>, cursors: seq<nat>, classSize: nat, n: nat, numClasses: nat): (g: seq<T>)
    requires InRange(|xs|, cursors, n, numClasses, classSize)
    decreases numClasses - n
  {
    if n >= numClasses then []
    else
      var c := cursors[n];
      xs[c..c + classSize] + GroupFrom(xs, cursors, classSize, n + 1, numClasses)
  }

  /** The classes `n ..` give up `classSize` entries each. */
  lemma {:induction false} GroupFromLength<T>(xs: seq<T>, cursors: seq<nat>, classSize: nat, n: nat, numClasses: nat)
    requires InRange(|xs|, cursors, n, numClasses, classSize)
    ensures |GroupFrom(xs, cursors, classSize, n, numClasses)| == Before(n, numClasses, classSize)
    decreases numClasses - n
  {
    if n < numClasses {
      GroupFromLength(xs, cursors, classSize, n + 1, numClasses);
    }
  }

  /** The group of the classes `n ..` is class `n`'s block followed by the group of the classes `n + 1 ..`. */
  lemma GroupFromUnfold<T>(xs: seq<T>, cursors: seq<nat>, classSize: nat, n: nat, numClasses: nat)
    requires InRange(|xs|, cursors, n, numClasses, classSize) && n < numClasses
    ensures GroupFrom(xs, cursors, classSize, n, numClasses)
         == xs[cursors[n]..cursors[n] + classSize] + GroupFrom(xs, cursors, classSize, n + 1, numClasses)
  {
  }

  /** The entries one round takes: the group of all classes. */
  function Group<T>(xs: seq<T>, cursors: seq<nat>, classSize: nat, numClasses: nat): (g: seq<T>)
    requires InRange(|xs|, cursors, 0, numClasses, classSize)
    ensures |g| == numClasses * classSize
  {
    BeforeIsMul(0, numClasses, classSize);
    GroupFromLength(xs, cursors, classSize, 0, numClasses);
    GroupFrom(xs, cursors, classSize, 0, numClasses)
  }

  /** `m < n` gives `m * k + k <= n * k`. */
  lemma MulStep(m: nat, n: nat, k: nat)
    requires m < n
    ensures m * k + k <= n * k
  {
    assert n * k == m * k + k + (n - m - 1) * k;
  }

  /** One more stretch of `k`. */
  lemma MulSucc(a: nat, k: nat)
    ensures (a + 1) * k == a * k + k
  {
  }

  /**
   * A group is laid out class by class: the `o`-th entry of class `m`'s stretch
   * is the `o`-th entry after class `m`'s cursor.
   */
  lemma {:induction false} GroupFromAt<T>(xs: seq<T>, cursors: seq<nat>, classSize: nat,
                                          n: nat, numClasses: nat, m: nat, o: nat)
    requires InRange(|xs|, cursors, n, numClasses, classSize)
    requires n <= m < numClasses && o < classSize
    ensures Before(n, m, classSize) + o < |GroupFrom(xs, cursors, classSize, n, numClasses)|
    ensures GroupFrom(xs, cursors, classSize, n, numClasses)[Before(n, m, classSize) + o] == xs[cursors[m] + o]
    decreases numClasses - n, 1
  {
    if m > n {
      GroupFromAtLater(xs, cursors, classSize, n, numClasses, m, o);
    } else {
      GroupFromAtFirst(xs, cursors, classSize, n, numClasses, m, o);
    }
  }

  /** Class `n`'s own stretch opens the group of the classes `n ..`. */
  lemma GroupFromAtFirst<T>(xs: seq<T>, cursors: seq<nat>, classSize: nat, n: nat, numClasses: nat, m: nat, o: nat)
    requires InRange(|xs|, cursors, n, numClasses, classSize)
    requires n == m < numClasses && o < classSize
    ensures Before(n, m, classSize) + o < |GroupFrom(xs, cursors, classSize, n, numClasses)|
    ensures GroupFrom(xs, cursors, classSize, n, numClasses)[Before(n, m, classSize) + o] == xs[cursors[m] + o]
  {
    var c := cursors[n];
    var block := xs[c..c + classSize];
    var rest := GroupFrom(xs, cursors, classSize, n + 1, numClasses);
    assert Before(n, m, classSize) == 0;
    assert GroupFrom(xs, cursors, classSize, n, numClasses) == block + rest;
    AppendAtFront(block, rest, o);
    assert block[o] == xs[c + o];
  }

  /** Past class `n`'s stretch, the group of the classes `n ..` reads as that of the classes `n + 1 ..`. */
  lemma GroupFromAtLater<T>(xs: seq<T>, cursors: seq<nat>, classSize: nat, n: nat, numClasses: nat, m: nat, o: nat)
    requires InRange(|xs|, cursors, n, numClasses, classSize)
    requires n < m < numClasses && o < classSize
    ensures Before(n, m, classSize) + o < |GroupFrom(xs, cursors, classSize, n, numClasses)|
    ensures GroupFrom(xs, cursors, classSize, n, numClasses)[Before(n, m, classSize) + o] == xs[cursors[m] + o]
    decreases numClasses - n, 0
  {
    hide GroupFrom;
    GroupFromAt(xs, cursors, classSize, n + 1, numClasses, m, o);
    GroupFromTail(xs, cursors, classSize, n, numClasses, m, o);
  }

  /** After class `n`'s block, a group continues with the group of the later classes. */
  lemma GroupFromTail<T>(xs: seq<T>, cursors: seq<nat>, classSize: nat, n: nat, numClasses: nat, m: nat, o: nat)
    requires InRange(|xs|, cursors, n, numClasses, classSize)
    requires n < m < numClasses && Before(n + 1, m, classSize) + o < |GroupFrom(xs, cursors, classSize, n + 1, numClasses)|
    ensures Before(n, m, classSize) + o < |GroupFrom(xs, cursors, classSize, n, numClasses)|
    ensures GroupFrom(xs, cursors, classSize, n, numClasses)[Before(n, m, classSize) + o]
         == GroupFrom(xs, cursors, classSize, n + 1, numClasses)[Before(n + 1, m, classSize) + o]
  {
    var c := cursors[n];
    var block := xs[c..c + classSize];
    var rest := GroupFrom(xs, cursors, classSize, n + 1, numClasses);
    var i := Before(n + 1, m, classSize) + o;
    assert Before(n, m, classSize) + o == |block| + i;
    assert GroupFrom(xs, cursors, classSize, n, numClasses) == block + rest;
    AppendAt(block, rest, Before(n, m, classSize) + o, i);
  }

  /** Before the end of `a`, `a + r` reads as `a`. */
  lemma AppendAtFront<T>(a: seq<T>, r: seq<T>, j: nat)
    requires j < |a|
    ensures j < |a + r| && (a + r)[j] == a[j]
  {
  }

  /** Past the end of `a`, `a + r` reads as `r`. */
  lemma AppendAt<T>(a: seq<T>, r: seq<T>, j: nat, i: nat)
    requires j == |a| + i && i < |r|
    ensures j < |a + r| && (a + r)[j] == r[i]
  {
  }

  /**
   * The row of a round is in class order: entry `m * classSize + o` of the
   * group is the `o`-th sample after class `m`'s cursor, and it is labelled `m`.
   */
  lemma GroupAt(global: seq<Sample>, cursors: seq<nat>, classSize: nat, numClasses: nat, m: nat, o: nat)
    requires BlocksUpTo(global, cursors, numClasses, classSize)
    requires m < numClasses && o < classSize
    ensures m * classSize + o < numClasses * classSize
    ensures Group(global, cursors, classSize, numClasses)[m * classSize + o] == global[cursors[m] + o]
    ensures Group(global, cursors, classSize, numClasses)[m * classSize + o].target == m
  {
    var g := Group(global, cursors, classSize, numClasses);
    var i := m * classSize + o;
    assert Before(0, m, classSize) == m * classSize by {
      BeforeIsMul(0, m, classSize);
    }
    assert i < |g| && g[i] == global[cursors[m] + o] by {
      GroupFromAt(global, cursors, classSize, 0, numClasses, m, o);
    }
    assert global[cursors[m] + o].target == m;
  }

  /** Cursors that agree on the classes `n .. numClasses-1` give the same group. */
  lemma {:induction false} GroupFromAgree<T>(xs: seq<T>, a: seq<nat>, b: seq<nat>, classSize: nat, n: nat, numClasses: nat)
    requires InRange(|xs|, a, n, numClasses, classSize) && numClasses <= |b|
    requires forall m :: n <= m < numClasses ==> a[m] == b[m]
    ensures InRange(|xs|, b, n, numClasses, classSize)
    ensures GroupFrom(xs, a, classSize, n, numClasses) == GroupFrom(xs, b, classSize, n, numClasses)
    decreases numClasses - n
  {
    assert InRange(|xs|, b, n, numClasses, classSize) by {
      forall m | n <= m < numClasses
        ensures b[m] + classSize <= |xs|
      {
        assert a[m] == b[m];
      }
    }
    if n < numClasses {
      hide GroupFrom;
      GroupFromAgree(xs, a, b, classSize, n + 1, numClasses);
      GroupFromUnfold(xs, a, classSize, n, numClasses);
      GroupFromUnfold(xs, b, classSize, n, numClasses);
      assert a[n] == b[n];
    }
  }

  /** Reading a group off the image list gives the image names of the group's samples. */
  lemma {:induction false} GroupNames(global: seq<Sample>, cursors: seq<nat>, classSize: nat, n: nat, numClasses: nat)
    requires InRange(|global|, cursors, n, numClasses, classSize)
    ensures GroupFrom(ImageList(global), cursors, classSize, n, numClasses)
         == ImageList(GroupFrom(global, cursors, classSize, n, numClasses))
    decreases numClasses - n
  {
    if n < numClasses {
      var c := cursors[n];
      var names := ImageList(global);
      var block := global[c..c + classSize];
      var rest := GroupFrom(global, cursors, classSize, n + 1, numClasses);
      hide GroupFrom;
      GroupFromUnfold(names, cursors, classSize, n, numClasses);
      GroupFromUnfold(global, cursors, classSize, n, numClasses);
      GroupNames(global, cursors, classSize, n + 1, numClasses);
      ImageListSlice(global, c, classSize);
      ImageListConcat(block, rest);
    }
  }

  /** What removing one class's samples hands on: the training list, the names, the cursor. */
  datatype RunOutcome = RunOutcome(training: seq<Sample>, names: seq<string>, cursor: nat)

  /**
   * Lines 219-223 for one class, with its cursor at `c` and `k` iterations
   * left: remove by value the sample at the cursor, record its image name,
   * advance the cursor. A cursor past the end of the list raises IndexError;
   * a sample no longer in the training list raises ValueError.
   */
  function RemoveRun(global: seq<Sample>, imagelist: seq<string>, training: seq<Sample>, c: nat, k: nat)
    : (r: Result<RunOutcome, Exception>)
    requires |imagelist| == |global|
    ensures k > 0 && c + k > |global| ==> r.Err?
    ensures r.Err? ==> r.error == IndexError || r.error == ValueError
    ensures r.Ok? ==> |r.value.names| == k && r.value.cursor == c + k
    decreases k
  {
    if k == 0 then Ok(RunOutcome(training, [], c))
    else if c >= |global| then Err(IndexError)
    else
      match Remove(training, global[c])
      case Err(e) => Err(e)
      case Ok(t) => PrependName(imagelist[c], RemoveRun(global, imagelist, t, c + 1, k - 1))
  }

  /** A run's outcome with `name` recorded in front of its names; an error passes through. */
  function PrependName(name: string, r: Result<RunOutcome, Exception>): Result<RunOutcome, Exception> {
    match r
    case Err(e) => Err(e)
    case Ok(rest) => Ok(RunOutcome(rest.training, [name] + rest.names, rest.cursor))
  }

  /**
   * With its block inside the list, a run is exactly the removal by value of
   * the block's samples, one after the other: it fails with the first
   * ValueError they raise, and otherwise records the block's image names and
   * leaves the cursor just past the block.
   */
  lemma {:induction false} RemoveRunSpec(global: seq<Sample>, imagelist: seq<string>, training: seq<Sample>, c: nat, k: nat)
    requires |imagelist| == |global| && c + k <= |global|
    ensures RemoveRun(global, imagelist, training, c, k)
         == RunResult(RemoveEach(training, global[c..c + k]), imagelist[c..c + k], c + k)
    decreases k, 1
  {
    if k > 0 {
      match Remove(training, global[c])
      case Err(_) =>
        RunFirstFails(global, imagelist, training, c, k);
      case Ok(t) =>
        RunCons(global, imagelist, training, c, k, t);
    } else {
      assert global[c..c] == [] && imagelist[c..c] == [];
    }
  }

  /** A run whose first removal fails fails with that error. */
  lemma RunFirstFails(global: seq<Sample>, imagelist: seq<string>, training: seq<Sample>, c: nat, k: nat)
    requires |imagelist| == |global| && 0 < k && c + k <= |global|
    requires Remove(training, global[c]).Err?
    ensures RemoveRun(global, imagelist, training, c, k)
         == RunResult(RemoveEach(training, global[c..c + k]), imagelist[c..c + k], c + k)
  {
    var c1, k1 := c + 1, k - 1;
    var rest := global[c1..c1 + k1];
    assert global[c..c + k] == [global[c]] + rest;
    RemoveEachCons(training, global[c], rest);
  }

  /** A run whose first removal leaves `t` is the rest of the run on `t`, which meets the specification. */
  lemma RunCons(global: seq<Sample>, imagelist: seq<string>, training: seq<Sample>, c: nat, k: nat, t: seq<Sample>)
    requires |imagelist| == |global| && 0 < k && c + k <= |global|
    requires Remove(training, global[c]) == Ok(t)
    ensures RemoveRun(global, imagelist, training, c, k)
         == RunResult(RemoveEach(training, global[c..c + k]), imagelist[c..c + k], c + k)
    decreases k, 0
  {
    hide RemoveRun;
    hide RemoveEach;
    var c1, k1 := c + 1, k - 1;
    var rest := global[c1..c1 + k1];
    var names := imagelist[c1..c1 + k1];
    calc {
      RemoveRun(global, imagelist, training, c, k);
    == { RemoveRunStep(global, imagelist, training, c, k, t, c1, k1); }
      PrependName(imagelist[c], RemoveRun(global, imagelist, t, c1, k1));
    == { RemoveRunSpec(global, imagelist, t, c1, k1); }
      PrependName(imagelist[c], RunResult(RemoveEach(t, rest), names, c1 + k1));
    == { RunResultPrepend(RemoveEach(t, rest), imagelist[c], names, c1 + k1); }
      RunResult(RemoveEach(t, rest), [imagelist[c]] + names, c1 + k1);
    == { RemoveEachCons(training, global[c], rest);
         SliceCons(global, c, k, c1, k1);
         SliceCons(imagelist, c, k, c1, k1); }
      RunResult(RemoveEach(training, global[c..c + k]), imagelist[c..c + k], c + k);
    }
  }

  /** The outcome of a run whose removals left `removed`; an error passes through. */
  function RunResult(removed: Result<seq<Sample>, Exception>, names: seq<string>, cursor: nat): Result<RunOutcome, Exception> {
    match removed
    case Err(e) => Err(e)
    case Ok(t) => Ok(RunOutcome(t, names, cursor))
  }

  /** A run whose first removal left `t` is the rest of the run on `t`, with the first name in front. */
  lemma RemoveRunStep(global: seq<Sample>, imagelist: seq<string>, training: seq<Sample>, c: nat, k: nat, t: seq<Sample>,
                      c1: nat, k1: nat)
    requires |imagelist| == |global| && c < |global| && c1 == c + 1 && k1 + 1 == k
    requires Remove(training, global[c]) == Ok(t)
    ensures RemoveRun(global, imagelist, training, c, k)
         == PrependName(imagelist[c], RemoveRun(global, imagelist, t, c1, k1))
  {
  }

  /** Putting a name in front of a run's outcome. */
  lemma RunResultPrepend(removed: Result<seq<Sample>, Exception>, name: string, names: seq<string>, cursor: nat)
    ensures PrependName(name, RunResult(removed, names, cursor)) == RunResult(removed, [name] + names, cursor)
  {
  }

  /** What a finished round hands on: the training list, the row of names, the cursors. */
  datatype RoundOutcome = RoundOutcome(training: seq<Sample>, row: seq<string>, cursors: seq<nat>)

  /** A round's outcome with `names` recorded in front of its row; an error passes through. */
  function Prepend(names: seq<string>, r: Result<RoundOutcome, Exception>): Result<RoundOutcome, Exception> {
    match r
    case Err(e) => Err(e)
    case Ok(rest) => Ok(RoundOutcome(rest.training, names + rest.row, rest.cursors))
  }

  /** The outcome of removals that left `removed`, with the given row and cursors; an error passes through. */
  function Finish(removed: Result<seq<Sample>, Exception>, row: seq<string>, cursors: seq<nat>): Result<RoundOutcome, Exception> {
    match removed
    case Err(e) => Err(e)
    case Ok(t) => Ok(RoundOutcome(t, row, cursors))
  }

  /**
   * Lines 218-223 from class `n` on: run the removals of classes
   * `n .. numClasses-1` in order, appending their names to the row. A class
   * without a cursor raises IndexError. The rounds only run with a positive
   * class size: a zero one stops the script at line 206.
   */
  function RemoveClasses(global: seq<Sample>, imagelist: seq<string>, training: seq<Sample>, cursors: seq<nat>,
                         n: nat, numClasses: nat, classSize: nat): (r: Result<RoundOutcome, Exception>)
    requires |imagelist| == |global| && n <= numClasses && classSize > 0
    ensures r.Err? ==> r.error == IndexError || r.error == ValueError
    ensures r.Ok? ==> |r.value.cursors| == |cursors|
    decreases numClasses - n
  {
    if n == numClasses then Ok(RoundOutcome(training, [], cursors))
    else if n >= |cursors| then Err(IndexError)
    else
      match RemoveRun(global, imagelist, training, cursors[n], classSize)
      case Err(e) => Err(e)
      case Ok(run) =>
        Prepend(run.names, RemoveClasses(global, imagelist, run.training, cursors[n := run.cursor], n + 1, numClasses, classSize))
  }

  /** The cursors after the classes `lo .. hi-1` have each moved on by `classSize`. */
  function Moved(cursors: seq<nat>, lo: nat, hi: nat, classSize: nat): (after: seq<nat>)
    ensures |after| == |cursors|
    ensures forall m :: 0 <= m < |cursors| && !(lo <= m < hi) ==> after[m] == cursors[m]
  {
    seq(|cursors|, m requires 0 <= m < |cursors| => cursors[m] + (if lo <= m < hi then classSize else 0))
  }

  /** Classes that all succeed found their cursors and their blocks inside the list. */
  lemma {:induction false} RemoveClassesInRange(global: seq<Sample>, imagelist: seq<string>, training: seq<Sample>,
                                                cursors: seq<nat>, n: nat, numClasses: nat, classSize: nat)
    requires |imagelist| == |global| && n <= numClasses && classSize > 0
    requires RemoveClasses(global, imagelist, training, cursors, n, numClasses, classSize).Ok?
    ensures InRange(|global|, cursors, n, numClasses, classSize)
    decreases numClasses - n
  {
    if n < numClasses {
      hide RemoveRun;
      var c := cursors[n];
      var run := RemoveRun(global, imagelist, training, c, classSize).value;
      var next := cursors[n := run.cursor];
      RemoveClassesInRange(global, imagelist, run.training, next, n + 1, numClasses, classSize);
      assert forall m :: n < m < numClasses ==> next[m] == cursors[m];
    }
  }

  /**
   * With every class's block inside the list, the classes `n ..` remove by
   * value exactly the group's samples, in group order, stopping at the first
   * ValueError; on success the row is the group read off the image list and
   * each of those classes' cursors moved on by `classSize`.
   */
  lemma {:induction false} RemoveClassesSpec(global: seq<Sample>, imagelist: seq<string>, training: seq<Sample>,
                                             cursors: seq<nat>, n: nat, numClasses: nat, classSize: nat)
    requires |imagelist| == |global| && n <= numClasses && classSize > 0
    requires InRange(|global|, cursors, n, numClasses, classSize)
    ensures RemoveClasses(global, imagelist, training, cursors, n, numClasses, classSize)
         == Finish(RemoveEach(training, GroupFrom(global, cursors, classSize, n, numClasses)),
                   GroupFrom(imagelist, cursors, classSize, n, numClasses), Moved(cursors, n, numClasses, classSize))
    decreases numClasses - n, 2
  {
    if n == numClasses {
      assert Moved(cursors, n, numClasses, classSize) == cursors;
    } else {
      var c := cursors[n];
      match RemoveEach(training, global[c..c + classSize])
      case Err(_) =>
        RemoveClassesErr(global, imagelist, training, cursors, n, numClasses, classSize);
      case Ok(t) =>
        RemoveClassesCons(global, imagelist, training, cursors, n, numClasses, classSize, t);
    }
  }

  /** The first class of the rest failing makes the whole rest fail with its error. */
  lemma RemoveClassesErr(global: seq<Sample>, imagelist: seq<string>, training: seq<Sample>,
                         cursors: seq<nat>, n: nat, numClasses: nat, classSize: nat)
    requires |imagelist| == |global| && n < numClasses && classSize > 0
    requires InRange(|global|, cursors, n, numClasses, classSize)
    requires RemoveEach(training, global[cursors[n]..cursors[n] + classSize]).Err?
    ensures RemoveClasses(global, imagelist, training, cursors, n, numClasses, classSize)
         == Finish(RemoveEach(training, GroupFrom(global, cursors, classSize, n, numClasses)),
                   GroupFrom(imagelist, cursors, classSize, n, numClasses), Moved(cursors, n, numClasses, classSize))
  {
    hide GroupFrom;
    var c, k := cursors[n], classSize;
    var block := global[c..c + k];
    var rest := GroupFrom(global, cursors, k, n + 1, numClasses);
    var e := RemoveEach(training, block).error;
    assert RemoveRun(global, imagelist, training, c, k) == Err(e) by {
      RemoveRunSpec(global, imagelist, training, c, k);
    }
    GroupFromCons(global, training, cursors, n, numClasses, k);
  }

  /**
   * The first class of the rest succeeding, with the later classes meeting
   * the specification, makes the whole rest meet it.
   */
  lemma RemoveClassesCons(global: seq<Sample>, imagelist: seq<string>, training: seq<Sample>,
                          cursors: seq<nat>, n: nat, numClasses: nat, classSize: nat, t: seq<Sample>)
    requires |imagelist| == |global| && n < numClasses && classSize > 0
    requires InRange(|global|, cursors, n, numClasses, classSize)
    requires RemoveEach(training, global[cursors[n]..cursors[n] + classSize]) == Ok(t)
    ensures RemoveClasses(global, imagelist, training, cursors, n, numClasses, classSize)
         == Finish(RemoveEach(training, GroupFrom(global, cursors, classSize, n, numClasses)),
                   GroupFrom(imagelist, cursors, classSize, n, numClasses), Moved(cursors, n, numClasses, classSize))
    decreases numClasses - n, 1
  {
    hide GroupFrom;
    hide RemoveClasses;
    var c, k := cursors[n], classSize;
    var rest := GroupFrom(global, cursors, k, n + 1, numClasses);
    var row := GroupFrom(imagelist, cursors, k, n + 1, numClasses);
    ClassOk(global, imagelist, training, cursors, n, numClasses, k, t);
    GroupFromCons(global, training, cursors, n, numClasses, k);
    GroupFromCons(imagelist, [], cursors, n, numClasses, k);
    RestAgree(global, imagelist, t, cursors, n, numClasses, k);
    PrependFinish(imagelist[c..c + k], RemoveEach(t, rest), row, Moved(cursors, n, numClasses, k));
  }

  /**
   * A class whose removals succeed leaving `t`: the rest of the round runs on
   * `t` with that class's cursor moved on, and its names come first.
   */
  lemma ClassOk(global: seq<Sample>, imagelist: seq<string>, training: seq<Sample>,
                cursors: seq<nat>, n: nat, numClasses: nat, classSize: nat, t: seq<Sample>)
    requires |imagelist| == |global| && n < numClasses && n < |cursors| && classSize > 0
    requires cursors[n] + classSize <= |global|
    requires RemoveEach(training, global[cursors[n]..cursors[n] + classSize]) == Ok(t)
    ensures RemoveClasses(global, imagelist, training, cursors, n, numClasses, classSize)
         == Prepend(imagelist[cursors[n]..cursors[n] + classSize],
                    RemoveClasses(global, imagelist, t, cursors[n := cursors[n] + classSize], n + 1, numClasses, classSize))
  {
    hide RemoveClasses;
    hide RemoveRun;
    hide RemoveEach;
    RunOk(global, imagelist, training, cursors[n], classSize, t);
    RemoveClassesStep(global, imagelist, training, cursors, n, numClasses, classSize,
                      t, imagelist[cursors[n]..cursors[n] + classSize], cursors[n] + classSize);
  }

  /** Removals of a run that succeed leaving `t` make the run succeed with the run's names. */
  lemma RunOk(global: seq<Sample>, imagelist: seq<string>, training: seq<Sample>, c: nat, k: nat, t: seq<Sample>)
    requires |imagelist| == |global| && c + k <= |global|
    requires RemoveEach(training, global[c..c + k]) == Ok(t)
    ensures RemoveRun(global, imagelist, training, c, k) == Ok(RunOutcome(t, imagelist[c..c + k], c + k))
  {
    RemoveRunSpec(global, imagelist, training, c, k);
  }

  /** The group from class `n` on is class `n`'s block, then the group from class `n + 1` on. */
  lemma GroupFromCons<T>(xs: seq<T>, training: seq<T>, cursors: seq<nat>, n: nat, numClasses: nat, classSize: nat)
    requires n < numClasses && InRange(|xs|, cursors, n, numClasses, classSize)
    ensures GroupFrom(xs, cursors, classSize, n, numClasses)
         == xs[cursors[n]..cursors[n] + classSize] + GroupFrom(xs, cursors, classSize, n + 1, numClasses)
    ensures RemoveEach(training, GroupFrom(xs, cursors, classSize, n, numClasses))
         == match RemoveEach(training, xs[cursors[n]..cursors[n] + classSize])
            case Err(e) => Err(e)
            case Ok(t) => RemoveEach(t, GroupFrom(xs, cursors, classSize, n + 1, numClasses))
  {
    RemoveEachAppend(training, xs[cursors[n]..cursors[n] + classSize], GroupFrom(xs, cursors, classSize, n + 1, numClasses));
  }

  /** The later classes' outcome, read with the cursors before class `n` moved. */
  lemma RestAgree(global: seq<Sample>, imagelist: seq<string>, t: seq<Sample>,
                  cursors: seq<nat>, n: nat, numClasses: nat, classSize: nat)
    requires |imagelist| == |global| && n < numClasses && classSize > 0
    requires InRange(|global|, cursors, n, numClasses, classSize)
    ensures RemoveClasses(global, imagelist, t, cursors[n := cursors[n] + classSize], n + 1, numClasses, classSize)
         == Finish(RemoveEach(t, GroupFrom(global, cursors, classSize, n + 1, numClasses)),
                   GroupFrom(imagelist, cursors, classSize, n + 1, numClasses), Moved(cursors, n, numClasses, classSize))
    decreases numClasses - n, 0
  {
    hide GroupFrom;
    hide RemoveClasses;
    var next := cursors[n := cursors[n] + classSize];
    GroupFromUpdate(global, cursors, classSize, n, numClasses, cursors[n] + classSize);
    GroupFromUpdate(imagelist, cursors, classSize, n, numClasses, cursors[n] + classSize);
    RemoveClassesSpec(global, imagelist, t, next, n + 1, numClasses, classSize);
    MovedStep(cursors, n, numClasses, classSize);
  }

  /** Moving class `n`'s cursor changes nothing in the group of the classes after it. */
  lemma GroupFromUpdate<T>(xs: seq<T>, cursors: seq<nat>, classSize: nat, n: nat, numClasses: nat, v: nat)
    requires n < |cursors| && InRange(|xs|, cursors, n, numClasses, classSize)
    ensures InRange(|xs|, cursors[n := v], n + 1, numClasses, classSize)
    ensures GroupFrom(xs, cursors[n := v], classSize, n + 1, numClasses) == GroupFrom(xs, cursors, classSize, n + 1, numClasses)
  {
    GroupFromAgree(xs, cursors, cursors[n := v], classSize, n + 1, numClasses);
  }

  /** A class whose run succeeds records the run's names in front of the later classes' row. */
  lemma RemoveClassesStep(global: seq<Sample>, imagelist: seq<string>, training: seq<Sample>, cursors: seq<nat>,
                          n: nat, numClasses: nat, classSize: nat, t: seq<Sample>, names: seq<string>, after: nat)
    requires |imagelist| == |global| && n < numClasses && n < |cursors| && classSize > 0
    requires RemoveRun(global, imagelist, training, cursors[n], classSize) == Ok(RunOutcome(t, names, after))
    ensures RemoveClasses(global, imagelist, training, cursors, n, numClasses, classSize)
         == Prepend(names, RemoveClasses(global, imagelist, t, cursors[n := after], n + 1, numClasses, classSize))
  {
  }

  /** Recording names in front of a finished outcome's row. */
  lemma PrependFinish(names: seq<string>, removed: Result<seq<Sample>, Exception>, row: seq<string>, cursors: seq<nat>)
    ensures Prepend(names, Finish(removed, row, cursors)) == Finish(removed, names + row, cursors)
  {
  }

  /** Moving class `n`'s cursor on, then the classes after it, moves the classes from `n` on. */
  lemma MovedStep(cursors: seq<nat>, n: nat, numClasses: nat, classSize: nat)
    requires n < numClasses <= |cursors|
    ensures Moved(cursors[n := cursors[n] + classSize], n + 1, numClasses, classSize)
         == Moved(cursors, n, numClasses, classSize)
  {
  }

  /**
   * Lines 213-223: one round. The training list starts again from the full
   * sample list (line 213 reloads the folder), then every class gives up its
   * block; `imagelist` is the list of image names built at line 194.
   */
  function RemoveGroup(global: seq<Sample>, imagelist: seq<string>, cursors: seq<nat>, numClasses: nat, classSize: nat)
    : (r: Result<RoundOutcome, Exception>)
    requires |imagelist| == |global| && classSize > 0
    ensures r.Err? ==> r.error == IndexError || r.error == ValueError
    ensures r.Ok? ==> |r.value.cursors| == |cursors|
  {
    RemoveClasses(global, imagelist, global, cursors, 0, numClasses, classSize)
  }

  /**
   * A round fails unless every class has a cursor whose block lies inside the
   * list; when they do, the round removes the group's samples by value from
   * the full list, records the group's image names in class order, and moves
   * every cursor on by `classSize`.
   */
  lemma RemoveGroupSpec(global: seq<Sample>, imagelist: seq<string>, cursors: seq<nat>, numClasses: nat, classSize: nat)
    requires imagelist == ImageList(global) && classSize > 0
    ensures RemoveGroup(global, imagelist, cursors, numClasses, classSize).Ok? ==>
      InRange(|global|, cursors, 0, numClasses, classSize)
    ensures InRange(|global|, cursors, 0, numClasses, classSize) ==>
      RemoveGroup(global, imagelist, cursors, numClasses, classSize)
        == match RemoveEach(global, Group(global, cursors, classSize, numClasses))
           case Err(e) => Err(e)
           case Ok(t) => Ok(RoundOutcome(t, ImageList(Group(global, cursors, classSize, numClasses)),
                                         Moved(cursors, 0, numClasses, classSize)))
  {
    if RemoveGroup(global, imagelist, cursors, numClasses, classSize).Ok? {
      RemoveClassesInRange(global, imagelist, global, cursors, 0, numClasses, classSize);
    }
    if InRange(|global|, cursors, 0, numClasses, classSize) {
      RemoveClassesSpec(global, imagelist, global, cursors, 0, numClasses, classSize);
      GroupNames(global, cursors, classSize, 0, numClasses);
    }
  }

  /** Nothing is removed before the first class. */
  lemma RemovedNone(global: seq<Sample>, cursors: seq<nat>, classSize: nat)
    ensures Keep(global, RemovedSoFar(global, cursors, classSize, 0)) == global
  {
    KeepAgree(global, RemovedSoFar(global, cursors, classSize, 0), {});
    KeepNothing(global);
  }

  /**
   * With blocks in place, finishing class `n` adds exactly its block to the
   * removed positions, and none of those positions was removed before.
   */
  lemma RemovedStep(global: seq<Sample>, cursors: seq<nat>, classSize: nat, n: nat, numClasses: nat)
    requires BlocksUpTo(global, cursors, numClasses, classSize) && n < numClasses
    ensures forall j :: cursors[n] <= j < cursors[n] + classSize ==> j !in RemovedSoFar(global, cursors, classSize, n)
    ensures RemovedSoFar(global, cursors, classSize, n + 1)
         == RemovedSoFar(global, cursors, classSize, n) + Span(cursors[n], classSize)
  {
    var c := cursors[n];
    SpanHas(c, classSize);
    forall j | c <= j < c + classSize
      ensures global[j].target == n
    {
    }
  }

  /**
   * Over distinct samples with blocks in place, the classes `n ..` remove
   * their group from the list that lacks the earlier classes' blocks, and
   * what remains lacks every class's block.
   */
  lemma {:induction false} GroupRemovesBlocks(global: seq<Sample>, cursors: seq<nat>, classSize: nat, n: nat, numClasses: nat)
    requires Distinct(global) && BlocksUpTo(global, cursors, numClasses, classSize) && n <= numClasses
    ensures RemoveEach(Keep(global, RemovedSoFar(global, cursors, classSize, n)), GroupFrom(global, cursors, classSize, n, numClasses))
         == Ok(Keep(global, RemovedSoFar(global, cursors, classSize, numClasses)))
    decreases numClasses - n
  {
    if n < numClasses {
      GroupRemovesBlocks(global, cursors, classSize, n + 1, numClasses);
      BlockRemoved(global, cursors, classSize, n, numClasses);
    } else {
      assert GroupFrom(global, cursors, classSize, n, numClasses) == [];
    }
  }

  /**
   * Removing class `n`'s block from the list that lacks the earlier blocks
   * leaves the list that lacks the blocks up to class `n`.
   */
  lemma BlockRemoved(global: seq<Sample>, cursors: seq<nat>, classSize: nat, n: nat, numClasses: nat)
    requires Distinct(global) && BlocksUpTo(global, cursors, numClasses, classSize) && n < numClasses
    ensures RemoveEach(Keep(global, RemovedSoFar(global, cursors, classSize, n)), GroupFrom(global, cursors, classSize, n, numClasses))
         == RemoveEach(Keep(global, RemovedSoFar(global, cursors, classSize, n + 1)), GroupFrom(global, cursors, classSize, n + 1, numClasses))
  {
    hide RemoveEach;
    hide GroupFrom;
    hide Keep;
    hide RemovedSoFar;
    var c, k := cursors[n], classSize;
    var drop := RemovedSoFar(global, cursors, k, n);
    assert RemoveEach(Keep(global, drop), global[c..c + k]) == Ok(Keep(global, RemovedSoFar(global, cursors, k, n + 1))) by {
      RemovedStep(global, cursors, k, n, numClasses);
      RemoveEachKept(global, drop, c, k);
    }
    GroupFromCons(global, Keep(global, drop), cursors, n, numClasses, k);
  }

  /**
   * A round over distinct samples whose classes each own a block succeeds:
   * its training list is the full list without the round's positions, in the
   * original order; its row holds the group's image names; every cursor moved
   * on by `classSize`.
   */
  lemma RemoveGroupReady(global: seq<Sample>, imagelist: seq<string>, cursors: seq<nat>, numClasses: nat, classSize: nat)
    requires imagelist == ImageList(global) && classSize > 0
    requires RoundReady(global, cursors, numClasses, classSize)
    ensures RemoveGroup(global, imagelist, cursors, numClasses, classSize)
         == Ok(RoundOutcome(Keep(global, RoundSet(global, cursors, classSize, numClasses)),
                            ImageList(Group(global, cursors, classSize, numClasses)),
                            Moved(cursors, 0, numClasses, classSize)))
  {
    RemoveGroupSpec(global, imagelist, cursors, numClasses, classSize);
    RemovedNone(global, cursors, classSize);
    GroupRemovesBlocks(global, cursors, classSize, 0, numClasses);
  }

  /**
   * The positions a round removes are exactly those inside some class's
   * block, `classSize * numClasses` of them, so the training list keeps the
   * rest.
   */
  lemma RoundSetBlocks(global: seq<Sample>, cursors: seq<nat>, numClasses: nat, classSize: nat, j: int)
    requires Blocks(global, cursors, numClasses, classSize)
    ensures j in RoundSet(global, cursors, classSize, numClasses) <==>
      0 <= j < |global| && exists m :: 0 <= m < numClasses && cursors[m] <= j < cursors[m] + classSize
  {
    if exists m :: 0 <= m < numClasses && cursors[m] <= j < cursors[m] + classSize {
      var m :| 0 <= m < numClasses && cursors[m] <= j < cursors[m] + classSize;
      assert global[j].target == m;
    }
  }

  /** The training list of a ready round is `classSize * numClasses` samples shorter than the full list. */
  lemma RoundTrainingSize(global: seq<Sample>, imagelist: seq<string>, cursors: seq<nat>, numClasses: nat, classSize: nat)
    requires imagelist == ImageList(global) && classSize > 0
    requires RoundReady(global, cursors, numClasses, classSize)
    ensures |Keep(global, RoundSet(global, cursors, classSize, numClasses))| == |global| - numClasses * classSize
    ensures multiset(Keep(global, RoundSet(global, cursors, classSize, numClasses)))
          + multiset(Group(global, cursors, classSize, numClasses)) == multiset(global)
  {
    RemoveGroupReady(global, imagelist, cursors, numClasses, classSize);
    RemoveGroupSpec(global, imagelist, cursors, numClasses, classSize);
    RemoveEachMultiset(global, Group(global, cursors, classSize, numClasses));
  }
}

=== FILE: samples.dfy ===
/**
 * The global sample list read from the training folder, and the two lists
 * `group-exclusion.py` derives from it at lines 186-194: the labels and the
 * image names (basenames).
 */
module Samples {
  import opened PyLists

  /** One entry of the image folder's sample list: file path and integer class label (`target`). */
  datatype Sample = Sample(path: string, target: nat)

  /** The labels of the samples, position by position. */
  function Labels(samples: seq<Sample>): (labels: seq<nat>)
    ensures |labels| == |samples|
    ensures forall i :: 0 <= i < |samples| ==> labels[i] == samples[i].target
  {
    seq(|samples|, i requires 0 <= i < |samples| => samples[i].target)
  }

  /** The image names of the samples: each path's basename, in sample order. */
  function ImageList(samples: seq<Sample>): (names: seq<string>)
    ensures |names| == |samples|
  {
    seq(|samples|, i requires 0 <= i < |samples| => Basename(samples[i].path))
  }

  /** Name `i` is the basename of sample `i`'s path, so it holds no '/'. */
  lemma ImageListAt(samples: seq<Sample>, i: nat)
    requires i < |samples|
    ensures ImageList(samples)[i] == Basename(samples[i].path)
    ensures '/' !in ImageList(samples)[i]
  {
    BasenameSpec(samples[i].path);
  }

  /** A sample stored as `dir/name` is listed under `name`. */
  lemma ImageListOfJoined(samples: seq<Sample>, i: nat, dir: string, name: string)
    requires i < |samples| && samples[i].path == dir + "/" + name
    requires '/' !in name
    ensures ImageList(samples)[i] == name
  {
    ImageListAt(samples, i);
    BasenameOfJoin(dir, name);
  }

  /** Listing two stretches of samples one after the other concatenates their names. */
  lemma ImageListConcat(a: seq<Sample>, b: seq<Sample>)
    ensures ImageList(a + b) == ImageList(a) + ImageList(b)
  {
    var joined := ImageList(a + b);
    var apart := ImageList(a) + ImageList(b);
    forall i | 0 <= i < |a| + |b|
      ensures joined[i] == apart[i]
    {
      if i < |a| {
        assert (a + b)[i] == a[i];
      } else {
        assert (a + b)[i] == b[i - |a|];
      }
    }
  }

  /** The image names of a stretch of samples are that stretch of the image list. */
  lemma ImageListSlice(samples: seq<Sample>, c: nat, k: nat)
    requires c + k <= |samples|
    ensures ImageList(samples[c..c + k]) == ImageList(samples)[c..c + k]
  {
    var names := ImageList(samples[c..c + k]);
    var slice := ImageList(samples)[c..c + k];
    forall i | 0 <= i < k
      ensures names[i] == slice[i]
    {
      assert samples[c..c + k][i] == samples[c + i];
    }
  }
}

=== FILE: wrappers.dfy ===
/** Failure-compatible Option and Result datatypes, usable with `:-`. */
module Wrappers {

  datatype Option<+T> = None | Some(value: T)

  /** Either a value or the error that aborted the computation. */
  datatype Result<+T, +E> = Ok(value: T) | Err(error: E) {

    predicate IsFailure() {
      Err?
    }

    function PropagateFailure<U>(): Result<U, E>
      requires Err?
    {
      Err(error)
    }

    function Extract(): T
      requires Ok?
    {
      value
    }
  }
}
